=== FILE: README.md ===
# Levigraf core in Dafny

Levigraf is a small Flask application that plots spreadsheet data. It has two
pages:

- **Overlay page** (`index_page`): up to five uploaded `.xlsx` files are drawn
  as scatter traces on one chart. Each trace is joined by lines when its
  "connect" box is ticked.
- **Analytical page** (`analytical`): up to three files are drawn as markers,
  together with up to two user formulas in `x`. The formulas are evaluated over
  a 500-point grid spanning the files' x-values.

This project models the logic of those two request handlers and of the formula
front end `safe_eval`. The model is split into four modules:

- `Text` (`text.dfy`): Python's ASCII character classes for `\s`, `\w` and
  `str.strip()`, plus substring search. Its lemmas say what stripping removes
  and keeps.
- `Formula` (`formula.dfy`): `safe_eval` as a pipeline of pure functions. These
  are the caret rewrite, the `re.sub` that prefixes the eight numpy function
  names with `np.`, the anchored whitelist check, and the post-pass that maps
  infinities and NaN to NaN. Python's `eval` and numpy are an uninterpreted
  `Evaluator` parameter.
- `Dataset` (`dataset.dfy`): the per-table normaliser. It refuses a table with
  fewer than two columns, derives header labels with the "Unnamed"/"nan" rule,
  and drops rows missing x or y.
- `Requests` (`requests.dfy`): the imperative part. It covers:
  - the slot scan loop;
  - the per-file loops of both pages, as methods whose loop state is the
    source's own variables (titles, `titles_set`, `error`, `success_count`,
    traces, `all_x`);
  - the formula loop;
  - the two page handlers.

  Each loop is proved equal to a declarative description of its result. Its
  properties are then proved about that description:
  - titles are set once;
  - the last error wins;
  - only plotted files contribute x-values;
  - the chart appears exactly when the source draws it.

Where the documented intent of the system and the code disagree, the model
follows the code. The differences are:

- The character whitelist admits `.`, `_` and every word character, and `np`
  is bound in the evaluation namespace. The check therefore does not block
  attribute access. The model states the check exactly as written and claims
  no sandbox property.
- A table that is empty after cleaning is skipped *without* touching `error`
  (main.py:100-101, 203-204). Only a table with too few columns, or a failed
  read, sets a message.
- A formula's value need not be one number per grid point. `np.array(result)`
  is a 0-d array when the formula gives one number ("2", or "x.sum()"), a 1-d
  array of any length for a flat sequence ("np.ones(3)"), and an array of
  higher rank for a tuple or a table ("sin(x), cos(x)" once prefixed, or
  "np.outer(x, x)"). The post-pass keeps each of these and the page hands it
  to the chart. `NumArray` therefore has a `Scalar`, a `Vector` and a `Nested`
  case, and no length-equals-grid property is claimed.
- The analytical page has no "everything failed" message. If all its files are
  skipped and no formula is given, it draws an empty chart. If anything
  failed, it draws nothing and shows the last message.
- On the analytical page, a rejected file name is overridden by the "no input"
  message when no file was collected and no formula given (main.py:170-171).
- The analytical page reads no connect boxes: every file there is drawn with
  markers only.

## Model

| member | source | states |
|---|---|---|
| Text.Contains | main.py:94 | `p in s` for strings: true exactly when `p` occurs at some position of `s` |
| Text.TrimLeftSpec | main.py:91 | left stripping removes exactly the leading whitespace and leaves a suffix of the input that does not start with whitespace |
| Text.TrimRightSpec | main.py:91 | right stripping removes exactly the trailing whitespace and leaves a prefix of the input that does not end with whitespace |
| Text.StripSpec | main.py:91-92 | `strip()` leaves a contiguous part of the input, cut only at whitespace, that neither starts nor ends with whitespace; it is empty exactly when the input is all whitespace |
| Text.StripKeepsInnerText | main.py:91-94 | a run that starts and ends with non-space characters survives stripping, so an "Unnamed" inside a header is still found after `strip()` |
| Text.StripIdempotent | main.py:91 | a property of `strip()`, which every header and form field goes through: stripping an already stripped string changes nothing |
| Formula.ReplaceCaret | main.py:36 | no caret remains; the length grows by one per caret; deleting the stars from the result gives the input with its carets and stars deleted, in order; the string is unchanged exactly when it has no caret |
| Formula.ReplaceCaretAppend | main.py:36 | the caret rewrite works character by character: rewriting a concatenation is concatenating the rewrites |
| Formula.ReplaceCaretChar | main.py:36 | on one character the rewrite gives "**" for a caret and the character itself otherwise |
| Formula.CaretExample | main.py:36 | "x^2" becomes "x**2" |
| Formula.FirstWholeWord | main.py:37 | the regex alternation, tried in order at one position: a result is a listed name occurring there as a whole word, and no result means no listed name occurs there as a whole word |
| Formula.NoStartAfterWordChar | main.py:37 | `\b` fails between two word characters, so no name starts right after a word character |
| Formula.PrefixIsSplice | main.py:37 | for any list of non-empty word alternatives (the eight function names among them), the left-to-right `re.sub` scan equals the reference rewrite that inserts "np." before every whole-word occurrence of a listed name and changes nothing else |
| Formula.SplicedAtWord | main.py:37 | at a whole-word start the reference writes "np." and then the whole name |
| Formula.NoWholeWordUnchanged | main.py:37 | text in which no name starts as a whole word (such as "sinh" or "xlog") is left unchanged |
| Formula.SinhUnchanged | main.py:37 | "sinh(x)" passes through the prefixing unchanged |
| Formula.Log10Matched | main.py:37 | in "log10(x)" the alternative "log" fails its trailing `\b`, so "log10" is the name matched |
| Formula.QualifiedNamePrefixedAgain | main.py:37 | an already qualified "np.sin(x)" becomes "np.np.sin(x)", because `\b` holds after the dot |
| Formula.SplicedChars | main.py:37-38 | the prefixing keeps every input character and adds only 'n', 'p' and '.' |
| Formula.AllAllowed | main.py:38 | every character is in the regex's character class |
| Formula.CharCheck | main.py:38 | the anchored `re.match` succeeds exactly when the string is non-empty and every character is a digit, word character, whitespace or one of `+ - * / ( ) . ,` |
| Formula.CheckUnchangedByPrefix | main.py:37-38 | the prefixing never changes the verdict of the character check |
| Formula.PostPass | main.py:43 | the post-pass keeps the shape (rank and every length, for 0-d, 1-d and higher-rank arrays), keeps every finite entry, and turns exactly the infinite and NaN entries into NaN |
| Formula.PostPassAll | main.py:43 | on an array of higher rank the post-pass is applied to each sub-array, keeping their number and order |
| Formula.SanitizeAll | main.py:43 | element-wise post-pass on a 1-d array: same length, each entry sanitised from the entry at the same index |
| Formula.SanitizedUnique | main.py:43 | the post-pass relation determines its result |
| Formula.SanitizedIsFixed | main.py:43 | what the post-pass produces contains no infinity, so it is its own post-pass |
| Formula.PostPassIdempotent | main.py:43 | applying the post-pass twice is applying it once |
| Formula.SafeEvalSpec | main.py:34-46 | every failure carries the formula-error prefix; a string failing the whitelist after the caret rewrite is refused with the bad-characters message, whatever the evaluator does; an evaluator error is passed on with the prefix; success happens exactly when the check passes and the evaluator succeeds, and the value is the post-pass of the evaluator's result |
| Formula.ForbiddenCharacterRefused | main.py:38-39 | a formula containing any of `; [ ] { } " ' =` is refused with the bad-characters message |
| Dataset.HeaderLabel | main.py:91-97 | the label is the stripped header unless that contains "Unnamed" or equals "nan", in which case it is empty (both directions) |
| Dataset.UnnamedHeaderFallsBack | main.py:94-105 | a header containing "Unnamed" anywhere, even with surrounding whitespace, gives the fallback axis title |
| Dataset.DropIncomplete | main.py:99 | `dropna` keeps no more rows than it is given, and every kept row has both x and y |
| Dataset.DropIncompleteMembers | main.py:99 | exactly the rows that have both x and y survive |
| Dataset.DropIncompleteAppend | main.py:99 | dropping works row by row and keeps order: dropping from a concatenation concatenates the drops |
| Dataset.NormalizeSpec | main.py:86-101 | fewer than two columns is refused (iff); a table with no complete row is empty after cleaning (iff); otherwise the labels come from the first two headers and the series lists, in order, the x and y of exactly the kept rows |
| Dataset.NormalizeExample | main.py:99-101 | headers ["Time","Value"] with rows (1,10), (missing,20), (3,missing), (4,40) give x = [1,4], y = [10,40] labelled "Time" and "Value" |
| Requests.FirstRejected | main.py:58-65 | the first slot whose provided file name does not end in ".xlsx", with no earlier such slot; none when every slot passes |
| Requests.ScanSlots | main.py:58-65 | the slot loop collects, in slot order, the files with non-empty names, with their connect flags kept parallel; it reports a rejection exactly when some name lacks ".xlsx", stopping at the first |
| Requests.Provided | main.py:59-63 | a slot counts as holding a file exactly when it has a file with a non-empty name; an empty field (no file, or a file named "") is passed over, neither collected nor rejected |
| Requests.ConnectFlag | main.py:62 | a file's "connect" flag is set exactly when the box sends "on"; an unticked box (absent) or any other value leaves it unset |
| Requests.AcceptedSlots | main.py:60-61 | the collected slots are no more than the slots and each holds a file |
| Requests.AcceptedSlotsMembers | main.py:58-61 | exactly the slots that hold a file are collected |
| Requests.AcceptedSlotsAppend | main.py:58-61 | collection works slot by slot and keeps slot order: collecting from a concatenation concatenates the collections |
| Requests.ConnectFlagsFollowFiles | main.py:58-62 | the flags stay parallel to the files: each collected file is paired with the connect flag of its own slot, which lies before the end of the scan |
| Dataset.AxisTitle | main.py:104-105 | the axis title is the label when there is one and the fallback otherwise, so an axis is never untitled |
| Requests.FileOutcomeSpec | main.py:80-121 | a failed read or a table with fewer than two columns is a failure (iff); a table with no complete row is skipped silently (iff); a plotted file has a non-empty series of x/y pairs labelled by its first two headers |
| Requests.Successes | main.py:117 | the listed indices are below the bound and name files that plotted |
| Requests.SuccessesComplete | main.py:117 | every file that plotted is listed, in strictly increasing order |
| Requests.SuccessesPrefix | main.py:77-121 | looking at more files only appends successes |
| Requests.LastFailureSpec | main.py:87-121 | with no failure the initial error survives; otherwise the kept error is some failure's message |
| Requests.LastFailureWins | main.py:87-121 | later failures overwrite earlier ones: the last failure's message is kept |
| Requests.TitlesSetOnce | main.py:103-106 | once some file has plotted, looking at more files never changes the axis titles |
| Requests.UnnamedFirstFileKeepsFallback | main.py:103-106 | when the first file plots with unnamed headers the titles stay X and Y, whatever later files contain |
| Requests.XValuesFromPlotted | main.py:211 | every collected x-value comes from a file that plotted |
| Requests.FoldSpecMeaning | main.py:77-121 | running the loop body over the first n files gives the declarative state: titles of the first file that plotted, the last failure's message, and the number, traces and x-values of the files that plotted; in analytical mode the same fold is the loop at main.py:180-222 |
| Requests.UnconnectedUnset | main.py:216 | the analytical page draws every file with markers only: no file's connect flag is set |
| Requests.FoldFile | main.py:80-121 | one loop iteration: record a failure's message, or set the titles if unset, add the trace, and count it (overlay) or collect its x-values (analytical) |
| Requests.OverlayFold | main.py:77-121 | the overlay loop ends in the state of the first five files: titles of the first file that plotted, the last failure's message, the number of plotted files and their traces in styles chosen by the connect flag and in the colour of each file's position among the collected files |
| Requests.AnalyticalFold | main.py:180-222 | the analytical loop ends in the state of the first three files: titles of the first file that plotted, the last failure's message, their numbered marker traces and their x-values in order |
| Requests.FormulaInputs | main.py:162-168 | the formulas kept are the stripped fields that are non-empty, func1 before func2 |
| Requests.XRange | main.py:224-227 | the grid spans from the least to the greatest collected x-value, or -10 to 10 when there is none |
| Requests.Grid | main.py:228 | the formula grid has 500 points over a range whose low end is not above its high end |
| Requests.GridCoversData | main.py:224-228 | every collected x-value lies within the grid, whose ends are collected x-values; without data the grid runs from -10 to 10 |
| Requests.FormulaSpecStep | main.py:230-244 | the declarative state after one more formula is the loop body applied to the state before it |
| Requests.EvaluateFormulas | main.py:230-244 | the formula loop gives the line traces of the first two formulas that evaluate, in order, and the last formula failure's message, or the file loop's error when none failed |
| Requests.PlotTitle | main.py:127-129 | the chart title is the stripped user title or the page's default, so it is never empty |
| Requests.PlotTitleSpec | main.py:247-249 | a title of whitespace only, or none, gives the default; any other is shown without surrounding whitespace and is neither empty nor padded |
| Requests.IndexPage | main.py:49-141 | GET draws nothing; a rejected name or an empty upload gives its message; otherwise the chart is drawn exactly when some file plotted, with the first plotted file's titles and the traces in slot order, and the error is the last failure's message or the generic one when nothing plotted and nothing failed |
| Requests.AnalyticalPage | main.py:144-261 | GET draws nothing; neither files nor formulas, or a rejected name, gives its message; otherwise the error is the last failure over the files then the formulas, evaluated on the grid over the plotted x-values, and the chart is drawn exactly when there is no error, with file traces followed by formula traces |

## Left out

- Flask routing, reading `request`, `render_template`, the `/instruktion` route
  and `app.run` are left out as HTTP and UI I/O. A request is given as the
  method flag, the decoded slots and the form strings.
- `secure_filename`, `file.save` and `pd.read_excel` are left out as file I/O
  and foreign libraries. Each `Upload` carries the browser's name, the
  sanitised name and the decoded table, or the exception text, as inputs.
- `str()` of a pandas header label is left out: headers arrive already
  rendered as text.
- Requests.XRange: a cell is a number or missing, so the range always exists.
  Text and datetime cells and pandas' dtype inference are not modelled,
  because they belong to the decoder. In the source, `dropna` keeps a text
  cell (main.py:202) and `all_x.extend` collects it (main.py:211); `min`,
  `max` and `np.linspace` (main.py:224-228) then run outside any `try`, so a
  text x-column on the analytical page raises an unhandled exception instead
  of giving a page. `Requests.XRange`, `Requests.Grid` and
  `Requests.AnalyticalPage` always give a result, and that crash is not
  captured.
- Exceptions inside the per-file `try` are modelled only as a failed read.
  An exception raised later, for example by Plotly while adding a trace after
  the titles were set, is not modelled, because it comes from foreign code.
- Requests.FormulaStep: an exception from `go.Scatter` inside the formula
  loop's `try` (main.py:233-244) is not modelled. The source would record
  "Ошибка в функции: …" and add no trace; the model appends a trace whenever
  `safe_eval` succeeds, because the chart library is foreign code.
- Rectangularity: a `Nested` array is not required to be rectangular. numpy
  raises on a ragged result, and that failure is the evaluator's to report.
- Plotly figure construction, layout (hover mode, template, legend title),
  marker size and `to_html` are left out as rendering. A figure is recorded
  as its title, axis titles and trace list.
- Python `eval`, numpy's ufuncs, `np.array(..., dtype=float64)` and
  `np.linspace` are left out as foreign numerics. The evaluator is a
  parameter, and the grid is recorded as its end points and its point count.
- Floating point is left out: x and y values are reals, and computed values
  are an abstract `Float` that is finite, ±infinity or NaN.
- Regex and `strip()` semantics for non-ASCII characters are left out. They
  are modelled over ASCII, and every other character is neither whitespace
  nor a word character.
- The write to the module-global `SAFE_DICT['x']` (main.py:40) is shared state
  across concurrent requests. It is left out; the grid is passed to the
  evaluator directly.
- Formula.SafeEvalSpec: says nothing about what the evaluator computes,
  because `eval` and numpy are outside the model. So "x^2" on a grid is not
  proved to give the squares, and an unknown name is not proved to fail.

=== FILE: dataset.dfy ===
/**
 * The per-dataset normaliser inside both request handlers (main.py:86-105 and
 * main.py:189-208): a table decoded from a spreadsheet keeps its first two
 * columns as (x, y), gets header-derived axis labels, and loses every row
 * where x or y is missing.
 */
module Dataset {
  import opened Wrappers
  import opened Text

  /** A decoded cell: a number, or missing (what pandas reads as NaN). */
  type Cell = Option<real>
  type Row = seq<Cell>

  /** A decoded sheet: the header row (as `str()` renders each label) and the data rows. */
  datatype Table = Table(header: seq<string>, rows: seq<Row>)

  datatype Normalized =
    | TooFewColumns
    | EmptyAfterCleaning
    | Cleaned(xLabel: string, yLabel: string, xs: seq<real>, ys: seq<real>)

  /**
   * The axis label taken from a header: the stripped text, or "" when it
   * contains "Unnamed" (pandas' name for a blank header cell) or is "nan".
   */
  function HeaderLabel(header: string): (r: string)
    ensures r != "" ==> r == Strip(header) && !Contains(r, "Unnamed") && r != "nan"
    ensures r == "" <==> Strip(header) == "" || Contains(Strip(header), "Unnamed") || Strip(header) == "nan"
  {
    var name := Strip(header);
    if Contains(name, "Unnamed") || name == "nan" then "" else name
  }

  /** The axis title a label gives: the label itself, or the fallback ("X" or "Y") when it is empty. */
  function AxisTitle(name: string, fallback: string): (r: string)
    ensures name != "" ==> r == name
    ensures name == "" ==> r == fallback
    ensures fallback != "" ==> r != ""
  {
    if name != "" then name else fallback
  }

  /** Both the first and the second cell of the row are present (a short row lacks its trailing cells). */
  predicate HasXY(row: Row) {
    |row| >= 2 && row[0].Some? && row[1].Some?
  }

  /** `df.dropna(subset=[first column, second column])` */
  function DropIncomplete(rows: seq<Row>): (r: seq<Row>)
    ensures |r| <= |rows|
    ensures forall j :: 0 <= j < |r| ==> HasXY(r[j])
  {
    if rows == [] then []
    else (if HasXY(rows[0]) then [rows[0]] else []) + DropIncomplete(rows[1..])
  }

  /** Exactly the rows that have both x and y survive. */
  lemma {:induction false} DropIncompleteMembers(rows: seq<Row>)
    ensures forall row :: row in DropIncomplete(rows) <==> row in rows && HasXY(row)
  {
    if rows != [] {
      DropIncompleteMembers(rows[1..]);
      assert rows == [rows[0]] + rows[1..];
    }
  }

  /**
   * Dropping works row by row and keeps the original order: dropping from a
   * concatenation is the concatenation of the two drops.
   */
  lemma {:induction false} DropIncompleteAppend(a: seq<Row>, b: seq<Row>)
    ensures DropIncomplete(a + b) == DropIncomplete(a) + DropIncomplete(b)
  {
    if a == [] {
      assert a + b == b;
    } else {
      assert (a + b)[0] == a[0];
      assert (a + b)[1..] == a[1..] + b;
      DropIncompleteAppend(a[1..], b);
    }
  }

  /** The values of column `k` of rows that all have it. */
  function Column(rows: seq<Row>, k: nat): seq<real>
    requires forall row: Row :: row in rows ==> k < |row| && row[k].Some?
  {
    seq(|rows|, j requires 0 <= j < |rows| => rows[j][k].value)
  }

  /** `df.shape[1] < 2`, the header labels, `dropna` and the two extracted columns. */
  function Normalize(t: Table): Normalized {
    if |t.header| < 2 then TooFewColumns
    else
      var kept := DropIncomplete(t.rows);
      if kept == [] then
        EmptyAfterCleaning
      else
        DropIncompleteMembers(t.rows);
        Cleaned(HeaderLabel(t.header[0]), HeaderLabel(t.header[1]), Column(kept, 0), Column(kept, 1))
  }

  /**
   * A table with fewer than two columns is refused; one whose rows all lack
   * x or y is empty after cleaning; otherwise the result pairs, in order, the
   * x and y values of exactly the rows that have both, with the two header labels.
   */
  lemma NormalizeSpec(t: Table)
    ensures var r := Normalize(t);
            && (r.TooFewColumns? <==> |t.header| < 2)
            && (r.EmptyAfterCleaning? <==> |t.header| >= 2 && forall row :: row in t.rows ==> !HasXY(row))
            && (r.Cleaned? ==>
                  && |t.header| >= 2
                  && r.xLabel == HeaderLabel(t.header[0])
                  && r.yLabel == HeaderLabel(t.header[1])
                  && var kept := DropIncomplete(t.rows);
                  && 0 < |kept| == |r.xs| == |r.ys|
                  && forall j :: 0 <= j < |kept| ==> kept[j][0] == Some(r.xs[j]) && kept[j][1] == Some(r.ys[j]))
  {
    DropIncompleteMembers(t.rows);
    var kept := DropIncomplete(t.rows);
    if kept != [] {
      assert kept[0] in kept;
    }
  }

  /** An example: rows with a missing x or y disappear, the others keep their order. */
  lemma NormalizeExample()
    ensures Normalize(Table(["Time", "Value"],
                            [[Some(1.0), Some(10.0)], [None, Some(20.0)], [Some(3.0), None], [Some(4.0), Some(40.0)]]))
            == Cleaned("Time", "Value", [1.0, 4.0], [10.0, 40.0])
  {
    var rows: seq<Row> := [[Some(1.0), Some(10.0)], [None, Some(20.0)], [Some(3.0), None], [Some(4.0), Some(40.0)]];
    assert DropIncomplete(rows) == [rows[0], rows[3]] by {
      assert DropIncomplete(rows[3..]) == [rows[3]];
      assert rows[2..][1..] == rows[3..];
      assert DropIncomplete(rows[2..]) == [rows[3]];
      assert rows[1..][1..] == rows[2..];
    }
    PlainHeaderLabels();
  }

  /** Headers with no surrounding space and no "Unnamed" are their own labels. */
  lemma PlainHeaderLabels()
    ensures HeaderLabel("Time") == "Time" && HeaderLabel("Value") == "Value"
  {
    assert !Contains("Time", "Unnamed") && !Contains("Value", "Unnamed");
  }

  /** A header pandas generates for a blank cell yields the fallback title. */
  lemma UnnamedHeaderFallsBack(header: string)
    requires Contains(header, "Unnamed")
    ensures AxisTitle(HeaderLabel(header), "X") == "X"
  {
    var name := Strip(header);
    var k :| OccursAt(header, "Unnamed", k);
    assert header[k] == 'U' && header[k + 6] == 'd' by {
      assert header[k] == header[k..k + 7][0];
      assert header[k + 6] == header[k..k + 7][6];
    }
    StripKeepsInnerText(header, k, 7);
  }
}

=== FILE: formula.dfy ===
/**
 * The formula front end `safe_eval` (main.py:34-46): the caret rewrite, the
 * `np.` prefixing of the eight function names, the anchored character check,
 * the call of the foreign evaluator and the post-pass that maps every infinite
 * or NaN entry to NaN. Python's `eval` together with numpy is outside the
 * model: it is the `Evaluator` parameter.
 */
module Formula {
  import opened Wrappers
  import opened Text

  /** A float64 value as numpy produces it, reduced to what the post-pass looks at. */
  datatype Float = Finite(value: real) | PosInf | NegInf | NaN

  /**
   * What `np.array(result, dtype=np.float64)` yields, by rank: a 0-d array
   * when the formula gives one number ("2", or "x.sum()"), a 1-d array when it
   * gives a flat sequence of numbers (the grid itself, or "np.ones(3)"), and an
   * array of higher rank, kept as its sub-arrays, when it gives a tuple or a
   * table ("sin(x), cos(x)", or "np.outer(x, x)").
   */
  datatype NumArray = Scalar(item: Float) | Vector(items: seq<Float>) | Nested(parts: seq<NumArray>)

  /** The sample grid `np.linspace(lo, hi, count)`; its points are computed by numpy. */
  datatype Domain = Linspace(lo: real, hi: real, count: nat)

  /**
   * The foreign step: evaluate the prepared expression with `x` bound to the
   * grid and convert the result to float64, or report the exception's text.
   */
  type Evaluator = (string, Domain) -> Result<NumArray>

  /** The names the prefixing step rewrites, in the order of the regex alternation. */
  const FunctionNames: seq<string> := ["sin", "cos", "tan", "exp", "log", "log10", "sqrt", "abs"]

  const FormulaErrorPrefix: string := "Ошибка в формуле: "
  const BadCharactersMessage: string := "Недопустимые символы в формуле"

  // ---------------------------------------------------------------------------
  // Step 1: `expr.replace('^', '**')`

  function Count(c: char, s: string): nat {
    if s == [] then 0 else (if s[0] == c then 1 else 0) + Count(c, s[1..])
  }

  /** `s` with every character of `cs` deleted, the others kept in order. */
  function Without(s: string, cs: set<char>): string {
    if s == [] then [] else (if s[0] in cs then [] else [s[0]]) + Without(s[1..], cs)
  }

  lemma {:induction false} WithoutAppend(a: string, b: string, cs: set<char>)
    ensures Without(a + b, cs) == Without(a, cs) + Without(b, cs)
  {
    if a == [] {
      assert a + b == b;
    } else {
      assert (a + b)[1..] == a[1..] + b;
      WithoutAppend(a[1..], b, cs);
    }
  }

  lemma {:induction false} WithoutMembers(s: string, cs: set<char>, c: char)
    ensures c in Without(s, cs) <==> c in s && c !in cs
  {
    if s != [] {
      WithoutMembers(s[1..], cs, c);
      assert s == [s[0]] + s[1..];
    }
  }

  /**
   * Every caret becomes the two-character power operator: no caret is left,
   * the string grows by one character per caret, and apart from the stars (the only
   * character inserted) the characters are those of `s`, in the same order.
   * The rewrite changes `s` exactly when `s` holds a caret.
   */
  function ReplaceCaret(s: string): (r: string)
    ensures '^' !in r
    ensures |r| == |s| + Count('^', s)
    ensures Without(r, {'*'}) == Without(s, {'^', '*'})
    ensures r == s <==> '^' !in s
  {
    if s == [] then []
    else
      var head := if s[0] == '^' then "**" else [s[0]];
      var rest := ReplaceCaret(s[1..]);
      WithoutAppend(head, rest, {'*'});
      assert Count('^', s) == (if s[0] == '^' then 1 else 0) + Count('^', s[1..]);
      head + rest
  }

  /** One character at a time: a caret becomes "**", any other character is kept. */
  lemma ReplaceCaretChar(c: char)
    ensures ReplaceCaret([c]) == if c == '^' then "**" else [c]
  {
    assert [c][1..] == [];
  }

  lemma {:induction false} ReplaceCaretAppend(a: string, b: string)
    ensures ReplaceCaret(a + b) == ReplaceCaret(a) + ReplaceCaret(b)
  {
    if a == [] {
      assert a + b == b;
    } else {
      var head := if a[0] == '^' then "**" else [a[0]];
      assert (a + b)[0] == a[0];
      assert (a + b)[1..] == a[1..] + b;
      ReplaceCaretAppend(a[1..], b);
      assert ReplaceCaret(a + b) == head + ReplaceCaret(a[1..] + b);
      assert ReplaceCaret(a) == head + ReplaceCaret(a[1..]);
      AppendAssoc(head, ReplaceCaret(a[1..]), ReplaceCaret(b));
    }
  }

  /** An example: "x^2" reaches the evaluator as "x**2". */
  lemma CaretExample()
    ensures ReplaceCaret("x^2") == "x**2"
  {
    assert ReplaceCaret("2") == "2";
    assert "^2"[1..] == "2";
    assert ReplaceCaret("^2") == "**2";
    assert "x^2"[1..] == "^2";
  }

  // ---------------------------------------------------------------------------
  // Step 2: `re.sub(r'\b(sin|cos|tan|exp|log|log10|sqrt|abs)\b', r'np.\1', expr)`

  /** `n` occurs at position `i` of `s` as a whole word: `\b` holds before and after it. */
  predicate WholeWordAt(s: string, i: nat, n: string) {
    && i + |n| <= |s|
    && s[i..i + |n|] == n
    && (i == 0 || !IsWordChar(s[i - 1]))
    && (i + |n| == |s| || !IsWordChar(s[i + |n|]))
  }

  /** Every character of `n` is a word character. */
  predicate IsWord(n: string) {
    forall k :: 0 <= k < |n| ==> IsWordChar(n[k])
  }

  /** No alternative of the pattern is empty, so every match moves the scan forward. */
  predicate NonEmptyNames(names: seq<string>) {
    forall n :: n in names ==> 0 < |n|
  }

  /** Every alternative of the pattern is a non-empty word, as each of the eight function names is. */
  predicate AreWords(names: seq<string>) {
    NonEmptyNames(names) && forall n :: n in names ==> IsWord(n)
  }

  lemma FunctionNamesAreWords()
    ensures AreWords(FunctionNames)
  {
  }

  /** Some name of `names` starts at `i` as a whole word. */
  predicate StartsWholeWord(s: string, i: nat, names: seq<string>) {
    exists n :: n in names && WholeWordAt(s, i, n)
  }

  /**
   * One match attempt of the regex at position `i`: the alternatives are
   * tried in order and the first whose trailing `\b` holds wins (so "log"
   * gives way to "log10" when a digit follows).
   */
  function FirstWholeWord(s: string, i: nat, names: seq<string>): (r: Option<string>)
    ensures r.Some? ==> r.value in names && WholeWordAt(s, i, r.value)
    ensures r.None? ==> forall n :: n in names ==> !WholeWordAt(s, i, n)
  {
    if names == [] then None
    else if WholeWordAt(s, i, names[0]) then Some(names[0])
    else FirstWholeWord(s, i, names[1..])
  }

  /** A name is matched exactly where one starts as a whole word, and what is matched is a non-empty word. */
  lemma FirstWholeWordSpec(s: string, i: nat, names: seq<string>)
    requires AreWords(names)
    ensures FirstWholeWord(s, i, names).Some? <==> StartsWholeWord(s, i, names)
    ensures FirstWholeWord(s, i, names).Some? ==>
              0 < |FirstWholeWord(s, i, names).value| && IsWord(FirstWholeWord(s, i, names).value)
  {
  }

  /** The left-to-right scan of `re.sub` from position `i`: rewrite a match, else copy one character. */
  function PrefixFrom(s: string, i: nat, names: seq<string>): string
    requires i <= |s| && NonEmptyNames(names)
    decreases |s| - i
  {
    if i == |s| then []
    else match FirstWholeWord(s, i, names)
      case Some(n) => "np." + n + PrefixFrom(s, i + |n|, names)
      case None => [s[i]] + PrefixFrom(s, i + 1, names)
  }

  /** The substitution with the eight function names as the alternatives. */
  function AddNumpyPrefix(s: string): string {
    FunctionNamesAreWords();
    PrefixFrom(s, 0, FunctionNames)
  }

  /** Reference definition: "np." inserted before every position where a name starts as a whole word. */
  function Spliced(s: string, i: nat, names: seq<string>): string
    requires i <= |s|
    decreases |s| - i
  {
    if i == |s| then []
    else (if StartsWholeWord(s, i, names) then "np." else "") + [s[i]] + Spliced(s, i + 1, names)
  }

  /** Inside a word no name can start, so the reference copies it unchanged. */
  lemma {:induction false} SplicedInsideWord(s: string, j: nat, e: nat, names: seq<string>)
    requires 1 <= j <= e <= |s|
    requires forall k :: j - 1 <= k < e - 1 ==> IsWordChar(s[k])
    ensures Spliced(s, j, names) == s[j..e] + Spliced(s, e, names)
    decreases e - j
  {
    if j < e {
      NoStartAfterWordChar(s, j, names);
      var rest := Spliced(s, e, names);
      assert Spliced(s, j, names) == [s[j]] + Spliced(s, j + 1, names);
      SplicedInsideWord(s, j + 1, e, names);
      assert s[j..e] == [s[j]] + s[j + 1..e];
      AppendAssoc([s[j]], s[j + 1..e], rest);
    }
  }

  /** `\b` fails between two word characters, so no name starts right after one. */
  lemma NoStartAfterWordChar(s: string, j: nat, names: seq<string>)
    requires 1 <= j <= |s| && IsWordChar(s[j - 1])
    ensures !StartsWholeWord(s, j, names)
  {
    forall n | n in names ensures !WholeWordAt(s, j, n) {
    }
  }

  /**
   * The regex scan agrees with the reference: it puts "np." before each
   * whole-word occurrence of a name and changes nothing else.
   */
  lemma {:induction false} PrefixIsSplice(s: string, i: nat, names: seq<string>)
    requires i <= |s| && AreWords(names)
    ensures PrefixFrom(s, i, names) == Spliced(s, i, names)
    decreases |s| - i
  {
    if i < |s| {
      match FirstWholeWord(s, i, names)
      case None =>
        PrefixIsSplice(s, i + 1, names);
        SpliceStepCopy(s, i, names);
      case Some(n) =>
        PrefixIsSplice(s, i + |n|, names);
        SpliceStepWord(s, i, n, names);
    }
  }

  /** A copied character keeps the scan and the reference in step. */
  lemma SpliceStepCopy(s: string, i: nat, names: seq<string>)
    requires i < |s| && AreWords(names) && FirstWholeWord(s, i, names).None?
    requires PrefixFrom(s, i + 1, names) == Spliced(s, i + 1, names)
    ensures PrefixFrom(s, i, names) == Spliced(s, i, names)
  {
    FirstWholeWordSpec(s, i, names);
    PrefixFromCopies(s, i, names);
    SplicedCopies(s, i, names);
  }

  /** A rewritten name keeps the scan and the reference in step. */
  lemma SpliceStepWord(s: string, i: nat, n: string, names: seq<string>)
    requires i < |s| && AreWords(names) && FirstWholeWord(s, i, names) == Some(n) && i + |n| <= |s|
    requires PrefixFrom(s, i + |n|, names) == Spliced(s, i + |n|, names)
    ensures PrefixFrom(s, i, names) == Spliced(s, i, names)
  {
    FirstWholeWordSpec(s, i, names);
    PrefixFromRewrites(s, i, n, names);
    SplicedAtWord(s, i, n, names);
  }

  /** Where no name starts, the reference copies one character and moves on. */
  lemma SplicedCopies(s: string, i: nat, names: seq<string>)
    requires i < |s| && !StartsWholeWord(s, i, names)
    ensures Spliced(s, i, names) == [s[i]] + Spliced(s, i + 1, names)
  {
    var none: string := "";
    assert none + [s[i]] == [s[i]];
  }

  /** At a whole-word start the reference inserts "np." and then copies the whole word. */
  lemma SplicedAtWord(s: string, i: nat, n: string, names: seq<string>)
    requires WholeWordAt(s, i, n) && 0 < |n| && IsWord(n) && StartsWholeWord(s, i, names)
    ensures Spliced(s, i, names) == "np." + n + Spliced(s, i + |n|, names)
  {
    var e := i + |n|;
    SplicedOpensWord(s, i, names);
    WholeWordChars(s, i, n);
    SplicedInsideWord(s, i + 1, e, names);
    assert s[i..e] == n;
    assert [s[i]] + s[i + 1..e] == n by {
      assert [s[i]] + s[i + 1..e] == s[i..e];
    }
    Glue("np.", [s[i]], s[i + 1..e], Spliced(s, e, names), n);
  }

  /** At a whole-word start the reference writes "np." and then the first character. */
  lemma SplicedOpensWord(s: string, i: nat, names: seq<string>)
    requires i < |s| && StartsWholeWord(s, i, names)
    ensures Spliced(s, i, names) == "np." + [s[i]] + Spliced(s, i + 1, names)
  {
  }

  /** The characters a whole word covers are word characters. */
  lemma WholeWordChars(s: string, i: nat, n: string)
    requires WholeWordAt(s, i, n) && IsWord(n)
    ensures forall k :: i <= k < i + |n| ==> IsWordChar(s[k])
  {
    forall k | i <= k < i + |n| ensures IsWordChar(s[k]) {
      assert s[k] == s[i..i + |n|][k - i] == n[k - i];
    }
  }

  /** Regrouping the pieces of a rewritten word. */
  lemma Glue<T>(np: seq<T>, head: seq<T>, word: seq<T>, rest: seq<T>, n: seq<T>)
    requires head + word == n
    ensures np + head + (word + rest) == np + n + rest
  {
    SeqAssoc(np, head, word, rest);
    AppendAssoc(np, n, rest);
  }

  lemma AppendAssoc<T>(a: seq<T>, b: seq<T>, c: seq<T>)
    ensures a + (b + c) == (a + b) + c
  {
  }

  lemma SeqAssoc<T>(a: seq<T>, b: seq<T>, c: seq<T>, d: seq<T>)
    ensures a + b + (c + d) == a + (b + c + d)
  {
  }

  /** Where no name starts as a whole word ("sinh", "xlog"), prefixing leaves the text as it is. */
  lemma {:induction false} NoWholeWordUnchanged(s: string, i: nat, names: seq<string>)
    requires i <= |s| && AreWords(names)
    requires forall k :: i <= k < |s| ==> !StartsWholeWord(s, k, names)
    ensures PrefixFrom(s, i, names) == s[i..]
  {
    PrefixIsSplice(s, i, names);
    SplicedNoStarts(s, i, names);
  }

  lemma {:induction false} SplicedNoStarts(s: string, i: nat, names: seq<string>)
    requires i <= |s|
    requires forall k :: i <= k < |s| ==> !StartsWholeWord(s, k, names)
    ensures Spliced(s, i, names) == s[i..]
    decreases |s| - i
  {
    if i < |s| {
      SplicedNoStarts(s, i + 1, names);
      assert s[i..] == [s[i]] + s[i + 1..];
    }
  }

  /** "sinh" is not one of the names, and "sin" inside it is followed by a word character: nothing changes. */
  lemma SinhUnchanged()
    ensures AddNumpyPrefix("sinh(x)") == "sinh(x)"
  {
    var s := "sinh(x)";
    forall k | 0 <= k < |s| ensures !StartsWholeWord(s, k, FunctionNames) {
      if 1 <= k <= 3 {
        NoStartAfterWordChar(s, k, FunctionNames);
      } else {
        forall n | n in FunctionNames ensures !WholeWordAt(s, k, n) {
          if k + |n| <= |s| {
            assert s[k..k + |n|][0] == s[k];
            if k == 0 {
              assert IsWordChar(s[3]) && s[1] == 'i';
              assert s[k..k + |n|][1] == s[1];
            }
          }
        }
      }
    }
    FunctionNamesAreWords();
    NoWholeWordUnchanged(s, 0, FunctionNames);
    assert s[0..] == s;
  }

  /** "log" is tried first but its trailing `\b` fails before the digit, so "log10" is the name matched. */
  lemma Log10Matched()
    ensures FirstWholeWord("log10(x)", 0, FunctionNames) == Some("log10")
  {
    var s := "log10(x)";
    assert !WholeWordAt(s, 0, "log");
    assert WholeWordAt(s, 0, "log10");
  }

  /**
   * A name the user already qualified is prefixed again: "." is not a word
   * character, so `\b` holds before "sin" in "np.sin" and the result names `np.np.sin`.
   */
  lemma QualifiedNamePrefixedAgain(s: string)
    requires s == "np.sin(x)"
    ensures AddNumpyPrefix(s) == "np." + s
  {
    FunctionNamesAreWords();
    NameStartsInQualified(s);
    NoWholeWordUnchanged(s, 6, FunctionNames);
    PrefixedAgainAtThree(s, FunctionNames);
  }

  /**
   * A string that starts with "np." followed by a three-letter name, and has
   * no other whole-word name, is scanned into "np." followed by itself.
   */
  lemma PrefixedAgainAtThree(s: string, names: seq<string>)
    requires 6 <= |s| && s[..3] == "np." && AreWords(names)
    requires FirstWholeWord(s, 0, names).None? && FirstWholeWord(s, 1, names).None?
    requires FirstWholeWord(s, 2, names).None? && FirstWholeWord(s, 3, names) == Some(s[3..6])
    requires PrefixFrom(s, 6, names) == s[6..]
    ensures PrefixFrom(s, 0, names) == "np." + s
  {
    PrefixFromRewrites(s, 3, s[3..6], names);
    PrefixFromCopies(s, 2, names);
    PrefixFromCopies(s, 1, names);
    PrefixFromCopies(s, 0, names);
    Regroup(s, PrefixFrom(s, 3, names));
    PrefixTwice(s, PrefixFrom(s, 3, names));
  }

  /** Gluing the copied "np." in front of the rewritten rest gives "np." before the whole string. */
  lemma PrefixTwice(s: string, t: string)
    requires 6 <= |s| && s[..3] == "np." && t == "np." + s[3..6] + s[6..]
    ensures s[..3] + t == "np." + s
  {
    assert s[3..6] + s[6..] == s[3..];
    assert s == s[..3] + s[3..];
  }

  /** Where a name starts, the scan writes it with the prefix and resumes after it. */
  lemma PrefixFromRewrites(s: string, i: nat, n: string, names: seq<string>)
    requires i < |s| && NonEmptyNames(names) && FirstWholeWord(s, i, names) == Some(n)
    ensures i + |n| <= |s| && PrefixFrom(s, i, names) == "np." + n + PrefixFrom(s, i + |n|, names)
  {
    assert n in names && WholeWordAt(s, i, n);
  }

  /** Three single characters consed in front of `t` are the first three of `s` followed by `t`. */
  lemma Regroup<T>(s: seq<T>, t: seq<T>)
    requires 3 <= |s|
    ensures [s[0]] + ([s[1]] + ([s[2]] + t)) == s[..3] + t
  {
  }

  /** Where no name starts, the scan copies one character and moves on. */
  lemma PrefixFromCopies(s: string, i: nat, names: seq<string>)
    requires i < |s| && NonEmptyNames(names) && FirstWholeWord(s, i, names).None?
    ensures PrefixFrom(s, i, names) == [s[i]] + PrefixFrom(s, i + 1, names)
  {
  }

  /** In "np.sin(x)" the only whole-word name is the "sin" at position 3. */
  lemma NameStartsInQualified(s: string)
    requires s == "np.sin(x)"
    ensures FirstWholeWord(s, 0, FunctionNames).None? && FirstWholeWord(s, 1, FunctionNames).None?
    ensures FirstWholeWord(s, 2, FunctionNames).None?
    ensures FirstWholeWord(s, 3, FunctionNames) == Some("sin") && s[..3] == "np." && s[3..6] == "sin"
    ensures forall k :: 6 <= k < |s| ==> !StartsWholeWord(s, k, FunctionNames)
  {
    SinAtThree(s);
    OnlySinInQualified(s);
    NoMatchWithoutStart(s, 0, FunctionNames);
    NoMatchWithoutStart(s, 1, FunctionNames);
    NoMatchWithoutStart(s, 2, FunctionNames);
  }

  lemma SinAtThree(s: string)
    requires s == "np.sin(x)"
    ensures FirstWholeWord(s, 3, FunctionNames) == Some("sin") && s[..3] == "np." && s[3..6] == "sin"
  {
    assert WholeWordAt(s, 3, "sin");
  }

  lemma OnlySinInQualified(s: string)
    requires s == "np.sin(x)"
    ensures forall k :: 0 <= k < |s| && k != 3 ==> !StartsWholeWord(s, k, FunctionNames)
  {
    forall k | 0 <= k < |s| && k != 3 ensures !StartsWholeWord(s, k, FunctionNames) {
      if k == 1 || k == 4 || k == 5 {
        NoStartAfterWordChar(s, k, FunctionNames);
      } else {
        forall n | n in FunctionNames ensures !WholeWordAt(s, k, n) {
          if k + |n| <= |s| {
            assert s[k..k + |n|][0] == s[k];
          }
        }
      }
    }
  }

  /** Where no name starts as a whole word, the match attempt fails. */
  lemma NoMatchWithoutStart(s: string, i: nat, names: seq<string>)
    requires !StartsWholeWord(s, i, names)
    ensures FirstWholeWord(s, i, names).None?
  {
  }

  /** The reference only adds the characters 'n', 'p' and '.', and keeps every character of the input. */
  lemma {:induction false} SplicedChars(s: string, i: nat, names: seq<string>)
    requires i <= |s|
    ensures |Spliced(s, i, names)| >= |s| - i
    ensures forall c :: c in s[i..] ==> c in Spliced(s, i, names)
    ensures forall c :: c in Spliced(s, i, names) ==> c in s[i..] || c in "np."
    decreases |s| - i
  {
    if i < |s| {
      SplicedChars(s, i + 1, names);
      assert s[i..] == [s[i]] + s[i + 1..];
    }
  }

  // ---------------------------------------------------------------------------
  // Step 3: `re.match(r'^[0-9+\-*/().,\s\w\s]+$', expr)`

  /** A member of the regex's character class. */
  predicate Allowed(c: char) {
    ('0' <= c <= '9') || c in "+-*/().," || IsSpace(c) || IsWordChar(c)
  }

  function AllAllowed(s: string): (r: bool)
    ensures r <==> forall k :: 0 <= k < |s| ==> Allowed(s[k])
  {
    s == [] || (Allowed(s[0]) && AllAllowed(s[1..]))
  }

  /**
   * The anchored match succeeds exactly when the string is non-empty and
   * every character is in the class. (`$` may also match before a final
   * newline, but a newline is itself in the class, so this adds nothing.)
   */
  function CharCheck(s: string): (r: bool)
    ensures r <==> |s| > 0 && forall c :: c in s ==> Allowed(c)
  {
    |s| > 0 && AllAllowed(s)
  }

  /** Prefixing never changes the verdict of the character check. */
  lemma CheckUnchangedByPrefix(s: string)
    ensures CharCheck(AddNumpyPrefix(s)) == CharCheck(s)
  {
    FunctionNamesAreWords();
    CheckUnchangedByScan(s, FunctionNames);
  }

  /** The same for any list of word alternatives. */
  lemma CheckUnchangedByScan(s: string, names: seq<string>)
    requires AreWords(names)
    ensures CharCheck(PrefixFrom(s, 0, names)) == CharCheck(s)
  {
    PrefixIsSplice(s, 0, names);
    SplicedChars(s, 0, names);
    assert s[0..] == s;
  }

  /** Both rewrites together: what reaches the evaluator. */
  function Prepare(expr: string): string {
    AddNumpyPrefix(ReplaceCaret(expr))
  }

  // ---------------------------------------------------------------------------
  // Step 4: `np.where(np.isinf(result) | np.isnan(result), np.nan, result)`

  /** `b` is what the post-pass makes of `a`: finite values are kept, the rest become NaN. */
  predicate SanitizedItem(a: Float, b: Float) {
    if a.Finite? then b == a else b.NaN?
  }

  /** `r` has the shape of `v`, and each entry of `r` is what the post-pass makes of the entry of `v` at the same place. */
  predicate IsSanitizedFrom(v: NumArray, r: NumArray)
    decreases v
  {
    match v
    case Scalar(a) => r.Scalar? && SanitizedItem(a, r.item)
    case Vector(us) => r.Vector? && |us| == |r.items| && forall k :: 0 <= k < |us| ==> SanitizedItem(us[k], r.items[k])
    case Nested(ps) => r.Nested? && |ps| == |r.parts| && forall k :: 0 <= k < |ps| ==> IsSanitizedFrom(ps[k], r.parts[k])
  }

  function Sanitize(f: Float): Float {
    if f.PosInf? || f.NegInf? || f.NaN? then NaN else f
  }

  function SanitizeAll(vs: seq<Float>): (r: seq<Float>)
    ensures |r| == |vs|
    ensures forall k :: 0 <= k < |vs| ==> SanitizedItem(vs[k], r[k])
  {
    if vs == [] then [] else [Sanitize(vs[0])] + SanitizeAll(vs[1..])
  }

  /** The post-pass keeps the shape, keeps finite entries and turns exactly the others into NaN. */
  function PostPass(v: NumArray): (r: NumArray)
    ensures IsSanitizedFrom(v, r)
    decreases v
  {
    match v
    case Scalar(a) => Scalar(Sanitize(a))
    case Vector(us) => Vector(SanitizeAll(us))
    case Nested(ps) => Nested(PostPassAll(ps))
  }

  /** The post-pass applied to each sub-array of an array of higher rank. */
  function PostPassAll(ps: seq<NumArray>): (qs: seq<NumArray>)
    ensures |qs| == |ps|
    ensures forall k :: 0 <= k < |ps| ==> IsSanitizedFrom(ps[k], qs[k])
    decreases ps
  {
    if ps == [] then [] else [PostPass(ps[0])] + PostPassAll(ps[1..])
  }

  /** The post-pass relation leaves no choice: it determines its result. */
  lemma {:induction false} SanitizedUnique(v: NumArray, r1: NumArray, r2: NumArray)
    requires IsSanitizedFrom(v, r1) && IsSanitizedFrom(v, r2)
    ensures r1 == r2
    decreases v
  {
    match v
    case Scalar(_) =>
    case Vector(_) =>
      assert r1.items == r2.items;
    case Nested(ps) =>
      forall k | 0 <= k < |ps| ensures r1.parts[k] == r2.parts[k] {
        SanitizedUnique(ps[k], r1.parts[k], r2.parts[k]);
      }
      assert r1.parts == r2.parts;
  }

  /** What the post-pass produces holds no infinity: it is its own post-pass. */
  lemma {:induction false} SanitizedIsFixed(v: NumArray, r: NumArray)
    requires IsSanitizedFrom(v, r)
    ensures IsSanitizedFrom(r, r)
    decreases v
  {
    match v
    case Scalar(_) =>
    case Vector(_) =>
    case Nested(ps) =>
      forall k | 0 <= k < |ps| ensures IsSanitizedFrom(r.parts[k], r.parts[k]) {
        SanitizedIsFixed(ps[k], r.parts[k]);
      }
  }

  /** Running the post-pass on its own output changes nothing. */
  lemma PostPassIdempotent(v: NumArray)
    ensures PostPass(PostPass(v)) == PostPass(v)
  {
    var r := PostPass(v);
    SanitizedIsFixed(v, r);
    SanitizedUnique(r, PostPass(r), r);
  }

  // ---------------------------------------------------------------------------
  // The whole of `safe_eval`

  /** `safe_eval(expr, x)`: the rewrites, the character check, the evaluation and the post-pass. */
  function SafeEval(expr: string, x: Domain, evaluate: Evaluator): Result<NumArray> {
    var prepared := Prepare(expr);
    if !CharCheck(prepared) then
      Err(FormulaErrorPrefix + BadCharactersMessage)
    else
      match evaluate(prepared, x)
      case Err(m) => Err(FormulaErrorPrefix + m)
      case Ok(v) => Ok(PostPass(v))
  }

  /**
   * A string that fails the character check (judged after the caret rewrite,
   * since the prefixing cannot change the verdict) is refused before
   * evaluation; an evaluation failure is passed on; every failure carries the
   * formula-error prefix; a success is the post-pass of what the evaluator returned.
   */
  lemma SafeEvalSpec(expr: string, x: Domain, evaluate: Evaluator)
    ensures var r := SafeEval(expr, x, evaluate);
            && (r.Err? ==> IsPrefix(FormulaErrorPrefix, r.msg))
            && (!CharCheck(ReplaceCaret(expr)) ==> r == Err(FormulaErrorPrefix + BadCharactersMessage))
            && (CharCheck(ReplaceCaret(expr)) && evaluate(Prepare(expr), x).Err? ==>
                  r == Err(FormulaErrorPrefix + evaluate(Prepare(expr), x).msg))
            && (r.Ok? <==> CharCheck(ReplaceCaret(expr)) && evaluate(Prepare(expr), x).Ok?)
            && (r.Ok? ==> IsSanitizedFrom(evaluate(Prepare(expr), x).value, r.value))
  {
    CheckUnchangedByPrefix(ReplaceCaret(expr));
  }

  /**
   * A formula containing any of `; [ ] { } " ' =` is refused by the character
   * check whatever the evaluator would do: neither rewrite removes such a character.
   */
  lemma ForbiddenCharacterRefused(expr: string, c: char, x: Domain, evaluate: Evaluator)
    requires c in expr && c in ";[]{}\"'="
    ensures SafeEval(expr, x, evaluate) == Err(FormulaErrorPrefix + BadCharactersMessage)
  {
    var replaced := ReplaceCaret(expr);
    assert c != '^' && c != '*' && !Allowed(c);
    WithoutMembers(expr, {'^', '*'}, c);
    WithoutMembers(replaced, {'*'}, c);
    assert c in replaced;
    assert !CharCheck(replaced);
    CheckUnchangedByPrefix(replaced);
  }
}

=== FILE: requests.dfy ===
/**
 * The two POST handlers of the web front end: `index_page` (overlay mode,
 * main.py:49-141) and `analytical` (main.py:144-261). Each scans its upload
 * slots, folds the per-file normaliser over the accepted files (setting the
 * axis titles once, counting successes, keeping the last error), and in
 * analytical mode evaluates up to two formulas over a grid spanning the
 * datasets' x-values. Flask, file saving, spreadsheet decoding and Plotly
 * are outside the model: a slot arrives already decoded, and a figure is the
 * record of what would be handed to Plotly.
 */
module Requests {
  import opened Wrappers
  import opened Text
  import opened Formula
  import opened Dataset

  datatype Mode = Overlay | Analytical

  /** How many upload slots the page has, and how many files the fold looks at. */
  function SlotCount(mode: Mode): nat {
    if mode == Overlay then 5 else 3
  }

  const MainColors: seq<string> := ["blue", "red", "green", "black", "gray"]
  const FileColorsAnalytical: seq<string> := ["green", "gray", "black"]
  const FuncColors: seq<string> := ["blue", "red"]

  /** At most this many formulas are evaluated: `if idx >= 2: break`. */
  const FormulaCap: nat := 2

  function RejectMessage(mode: Mode): string {
    if mode == Overlay then "Все файлы должны иметь расширение .xlsx" else "Все файлы должны быть .xlsx"
  }

  const NoFilesMessage: string := "Загрузите хотя бы один .xlsx файл"
  const NoInputMessage: string := "Загрузите файлы или введите хотя бы одну функцию"
  const NothingPlottedMessage: string := "Не удалось обработать ни один файл"

  function TooFewColumnsMessage(savedName: string): string {
    "Файл " + savedName + ": нужно ≥2 столбцов"
  }

  function FileExceptionMessage(mode: Mode, filename: string, cause: string): string {
    (if mode == Overlay then "Ошибка при обработке " else "Ошибка файла ") + filename + ": " + cause
  }

  function FormulaFailureMessage(cause: string): string {
    "Ошибка в функции: " + cause
  }

  function DefaultTitle(mode: Mode): string {
    if mode == Overlay then "График по загруженным файлам" else "Аналитический анализ"
  }

  /**
   * An uploaded file: the name the browser sent, the name `secure_filename`
   * makes of it, and what saving and `pd.read_excel` produced (a table, or
   * the text of the exception they raised).
   */
  datatype Upload = Upload(filename: string, savedName: string, content: Result<Table>)

  /** One form slot: the file field `file<i>` and the checkbox `connect<i>`. */
  datatype Slot = Slot(file: Option<Upload>, connect: Option<string>)

  datatype TraceMode = Markers | LinesMarkers | Lines

  /** A trace as handed to the chart: its legend name, style, colour and data. */
  datatype Trace =
    | DataTrace(name: string, mode: TraceMode, colour: string, xs: seq<real>, ys: seq<real>)
    | FormulaTrace(name: string, mode: TraceMode, colour: string, grid: Domain, values: NumArray)

  datatype Figure = Figure(title: string, xTitle: string, yTitle: string, traces: seq<Trace>)

  // ---------------------------------------------------------------------------
  // Scanning the upload slots (main.py:58-65 and main.py:154-160)

  /**
   * A file field is truthy only when it holds a file with a non-empty name: a
   * field left empty in the form arrives as a file with the name "", and is
   * passed over like a missing one.
   */
  function Provided(s: Slot): (r: bool)
    ensures r ==> s.file.Some?
    ensures s.file.Some? && s.file.value.filename == "" ==> !r
    ensures s.file.Some? && s.file.value.filename != "" ==> r
  {
    s.file.Some? && s.file.value.filename != ""
  }

  predicate Rejected(s: Slot) {
    Provided(s) && !EndsWith(s.file.value.filename, ".xlsx")
  }

  /** A ticked checkbox sends "on"; an unticked one sends nothing, and any other value does not tick it. */
  function ConnectFlag(s: Slot): (r: bool)
    ensures s.connect.None? ==> !r
    ensures s.connect.Some? && s.connect.value != "on" ==> !r
    ensures s.connect == Some("on") ==> r
  {
    s.connect == Some("on")
  }

  /** The first slot whose file does not end in ".xlsx", if any. */
  function FirstRejected(slots: seq<Slot>): (r: Option<nat>)
    ensures r.Some? ==> r.value < |slots| && Rejected(slots[r.value])
    ensures r.Some? ==> forall k :: 0 <= k < r.value ==> !Rejected(slots[k])
    ensures r.None? ==> forall k :: 0 <= k < |slots| ==> !Rejected(slots[k])
  {
    if slots == [] then None
    else if Rejected(slots[0]) then Some(0)
    else match FirstRejected(slots[1..])
      case Some(k) => Some(k + 1)
      case None => None
  }

  /** Where the scan stops: at the first rejected slot, or after the last slot. */
  function ScanEnd(slots: seq<Slot>): (n: nat)
    ensures n <= |slots|
  {
    match FirstRejected(slots)
    case Some(k) => k
    case None => |slots|
  }

  /** The slots that hold a file, in slot order. */
  function AcceptedSlots(slots: seq<Slot>): (r: seq<Slot>)
    ensures |r| <= |slots|
    ensures forall j :: 0 <= j < |r| ==> Provided(r[j])
  {
    if slots == [] then []
    else AcceptedSlots(slots[..|slots| - 1]) + (if Provided(slots[|slots| - 1]) then [slots[|slots| - 1]] else [])
  }

  /** Exactly the slots that hold a file are collected. */
  lemma {:induction false} AcceptedSlotsMembers(slots: seq<Slot>)
    ensures forall s :: s in AcceptedSlots(slots) <==> s in slots && Provided(s)
  {
    if slots != [] {
      var init := slots[..|slots| - 1];
      AcceptedSlotsMembers(init);
      assert slots == init + [slots[|slots| - 1]];
    }
  }

  /** Collecting works slot by slot and keeps slot order: collecting from a concatenation concatenates the two collections. */
  lemma {:induction false} AcceptedSlotsAppend(a: seq<Slot>, b: seq<Slot>)
    ensures AcceptedSlots(a + b) == AcceptedSlots(a) + AcceptedSlots(b)
    decreases |b|
  {
    if b == [] {
      assert a + b == a;
    } else {
      var init := b[..|b| - 1];
      var last := b[|b| - 1];
      AcceptedSlotsAppend(a, init);
      assert (a + b)[..|a + b| - 1] == a + init;
      assert (a + b)[|a + b| - 1] == last;
      var tail := if Provided(last) then [last] else [];
      calc {
        AcceptedSlots(a + b);
        AcceptedSlots(a + init) + tail;
        AcceptedSlots(a) + AcceptedSlots(init) + tail;
        AcceptedSlots(a) + (AcceptedSlots(init) + tail);
      }
    }
  }

  function Uploads(ss: seq<Slot>): seq<Upload>
    requires forall j :: 0 <= j < |ss| ==> Provided(ss[j])
  {
    seq(|ss|, j requires 0 <= j < |ss| && Provided(ss[j]) => ss[j].file.value)
  }

  function Flags(ss: seq<Slot>): seq<bool> {
    seq(|ss|, j requires 0 <= j < |ss| => ConnectFlag(ss[j]))
  }

  /** The files the scan collects, and the connect flags kept parallel to them. */
  function ScannedFiles(slots: seq<Slot>): seq<Upload> {
    Uploads(AcceptedSlots(slots[..ScanEnd(slots)]))
  }

  function ScannedFlags(slots: seq<Slot>): seq<bool> {
    Flags(AcceptedSlots(slots[..ScanEnd(slots)]))
  }

  /**
   * The slot loop: files are collected in slot order, each with its connect
   * flag, empty slots are passed over, and the first name not ending in
   * ".xlsx" stops the scan and reports a rejection.
   */
  method ScanSlots(slots: seq<Slot>) returns (files: seq<Upload>, connects: seq<bool>, rejected: bool)
    ensures rejected <==> FirstRejected(slots).Some?
    ensures files == ScannedFiles(slots)
    ensures connects == ScannedFlags(slots)
    ensures |files| == |connects| <= |slots|
  {
    files, connects, rejected := [], [], false;
    var i := 0;
    while i < |slots|
      invariant 0 <= i <= |slots|
      invariant forall k :: 0 <= k < i ==> !Rejected(slots[k])
      invariant files == Uploads(AcceptedSlots(slots[..i]))
      invariant connects == Flags(AcceptedSlots(slots[..i]))
    {
      var s := slots[i];
      assert slots[..i + 1][..i] == slots[..i];
      if s.file.Some? && s.file.value.filename != "" && EndsWith(s.file.value.filename, ".xlsx") {
        files := files + [s.file.value];
        connects := connects + [ConnectFlag(s)];
      } else if s.file.Some? && s.file.value.filename != "" {
        rejected := true;
        FirstRejectedAt(slots, i);
        break;
      }
      i := i + 1;
    }
    if !rejected {
      assert slots[..i] == slots;
    }
  }

  /** Each collected file keeps the connect flag of its own slot, which lies before the end of the scan. */
  lemma ConnectFlagsFollowFiles(slots: seq<Slot>)
    ensures |ScannedFlags(slots)| == |ScannedFiles(slots)|
    ensures forall j :: 0 <= j < |ScannedFiles(slots)| ==>
              exists k :: 0 <= k < ScanEnd(slots) && slots[k].file == Some(ScannedFiles(slots)[j])
                          && ScannedFlags(slots)[j] == ConnectFlag(slots[k])
  {
    var e := ScanEnd(slots);
    var acc := AcceptedSlots(slots[..e]);
    AcceptedSlotsMembers(slots[..e]);
    forall j | 0 <= j < |ScannedFiles(slots)|
      ensures exists k :: 0 <= k < e && slots[k].file == Some(ScannedFiles(slots)[j])
                          && ScannedFlags(slots)[j] == ConnectFlag(slots[k])
    {
      assert acc[j] in slots[..e];
      var k :| 0 <= k < e && slots[..e][k] == acc[j];
      assert slots[k] == acc[j];
    }
  }

  lemma FirstRejectedAt(slots: seq<Slot>, i: nat)
    requires i < |slots| && Rejected(slots[i])
    requires forall k :: 0 <= k < i ==> !Rejected(slots[k])
    ensures FirstRejected(slots) == Some(i)
  {
    var r := FirstRejected(slots);
    assert r.Some?;
  }

  // ---------------------------------------------------------------------------
  // The per-file step (main.py:80-121 and main.py:183-222)

  /** What one file contributes: an error message, nothing, or a plottable series. */
  datatype FileResult =
    | Failed(msg: string)
    | Skipped
    | Plotted(xLabel: string, yLabel: string, xs: seq<real>, ys: seq<real>)

  /** What one file contributes, by the kind of outcome its table gives. */
  function FileOutcome(mode: Mode, f: Upload): FileResult {
    match f.content
    case Err(cause) => Failed(FileExceptionMessage(mode, f.filename, cause))
    case Ok(t) =>
      match Normalize(t)
      case TooFewColumns => Failed(TooFewColumnsMessage(f.savedName))
      case EmptyAfterCleaning => Skipped
      case Cleaned(xLabel, yLabel, xs, ys) => Plotted(xLabel, yLabel, xs, ys)
  }

  /**
   * Decoding failures and tables with fewer than two columns are failures,
   * a table with no complete row is skipped silently, anything else plots
   * a non-empty series of (x, y) pairs labelled by the first two headers.
   */
  lemma FileOutcomeSpec(mode: Mode, f: Upload)
    ensures var r := FileOutcome(mode, f);
            && (r.Failed? <==> f.content.Err? || |f.content.value.header| < 2)
            && (r.Skipped? <==> f.content.Ok? && |f.content.value.header| >= 2
                                && forall row :: row in f.content.value.rows ==> !HasXY(row))
            && (r.Plotted? ==> 0 < |r.xs| == |r.ys|
                               && r.xLabel == HeaderLabel(f.content.value.header[0])
                               && r.yLabel == HeaderLabel(f.content.value.header[1]))
  {
    if f.content.Ok? {
      NormalizeSpec(f.content.value);
    }
  }

  function Results(mode: Mode, files: seq<Upload>): (rs: seq<FileResult>)
    ensures |rs| == |files|
  {
    seq(|files|, k requires 0 <= k < |files| => FileOutcome(mode, files[k]))
  }

  /** The outcome listed for file `k` is that file's own. */
  lemma ResultAt(mode: Mode, files: seq<Upload>, k: nat)
    requires k < |files|
    ensures Results(mode, files)[k] == FileOutcome(mode, files[k])
  {
  }

  function PlottedFlags(rs: seq<FileResult>): (ok: seq<bool>)
    ensures |ok| == |rs|
  {
    seq(|rs|, k requires 0 <= k < |rs| => rs[k].Plotted?)
  }

  function FailureMessages(rs: seq<FileResult>): (fs: seq<Option<string>>)
    ensures |fs| == |rs|
  {
    seq(|rs|, k requires 0 <= k < |rs| => if rs[k].Failed? then Some(rs[k].msg) else None)
  }

  /** How many files the loop looks at: `if idx >= cap: break`. */
  function Processed(mode: Mode, files: seq<Upload>): (n: nat)
    ensures n <= |files| && n <= SlotCount(mode)
  {
    if |files| < SlotCount(mode) then |files| else SlotCount(mode)
  }

  // ---------------------------------------------------------------------------
  // Specification of the folds: which items succeed, and which error is kept

  /** The indices below `n` whose item succeeded, in increasing order. */
  function Successes(ok: seq<bool>, n: nat): (K: seq<nat>)
    requires n <= |ok|
    ensures forall j :: 0 <= j < |K| ==> K[j] < n && ok[K[j]]
  {
    if n == 0 then [] else Successes(ok, n - 1) + (if ok[n - 1] then [n - 1] else [])
  }

  /** Every item below `n` that succeeded is listed, and the list is strictly increasing. */
  lemma {:induction false} SuccessesComplete(ok: seq<bool>, n: nat)
    requires n <= |ok|
    ensures forall k :: 0 <= k < n && ok[k] ==> k in Successes(ok, n)
    ensures forall i, j :: 0 <= i < j < |Successes(ok, n)| ==> Successes(ok, n)[i] < Successes(ok, n)[j]
  {
    if n > 0 {
      SuccessesComplete(ok, n - 1);
    }
  }

  /** The message of the last failure below `n`, or `e0` when nothing below `n` failed. */
  function LastFailure(fails: seq<Option<string>>, n: nat, e0: Option<string>): (e: Option<string>)
    requires n <= |fails|
  {
    if n == 0 then e0
    else if fails[n - 1].Some? then fails[n - 1]
    else LastFailure(fails, n - 1, e0)
  }

  /** With no failure below `n` the initial message survives; otherwise the kept message is some failure's. */
  lemma {:induction false} LastFailureSpec(fails: seq<Option<string>>, n: nat, e0: Option<string>)
    requires n <= |fails|
    ensures (forall k :: 0 <= k < n ==> fails[k].None?) ==> LastFailure(fails, n, e0) == e0
    ensures LastFailure(fails, n, e0) == e0
            || exists k :: 0 <= k < n && fails[k].Some? && LastFailure(fails, n, e0) == fails[k]
  {
    if n > 0 && fails[n - 1].None? {
      LastFailureSpec(fails, n - 1, e0);
    }
  }

  /** Later failures overwrite earlier ones: the last failure's message is the one kept. */
  lemma {:induction false} LastFailureWins(fails: seq<Option<string>>, n: nat, e0: Option<string>, k: nat)
    requires k < n <= |fails| && fails[k].Some?
    requires forall j :: k < j < n ==> fails[j].None?
    ensures LastFailure(fails, n, e0) == fails[k]
  {
    if n - 1 != k {
      LastFailureWins(fails, n - 1, e0, k);
    }
  }

  /** Looking at more items only appends successes: the earlier list is a prefix of the later one. */
  lemma {:induction false} SuccessesPrefix(ok: seq<bool>, m: nat, n: nat)
    requires m <= n <= |ok|
    ensures |Successes(ok, m)| <= |Successes(ok, n)|
    ensures Successes(ok, m) == Successes(ok, n)[..|Successes(ok, m)|]
  {
    if m < n {
      SuccessesPrefix(ok, m, n - 1);
      var K := Successes(ok, n - 1);
      assert Successes(ok, n)[..|K|] == K;
    }
  }

  /**
   * The titles of a list of successful files: those of the first one (with
   * the X/Y fallback for an empty label), or X and Y when there is none.
   */
  function AxisTitles(rs: seq<FileResult>, K: seq<nat>): (string, string)
    requires forall j :: 0 <= j < |K| ==> K[j] < |rs| && rs[K[j]].Plotted?
  {
    if K == [] then ("X", "Y")
    else (AxisTitle(rs[K[0]].xLabel, "X"), AxisTitle(rs[K[0]].yLabel, "Y"))
  }

  /**
   * Axis titles are fixed by the first file that survives cleaning: once some
   * file among the first `m` has plotted, looking at more files never changes them.
   */
  lemma TitlesSetOnce(rs: seq<FileResult>, m: nat, n: nat)
    requires m <= n <= |rs|
    requires Successes(PlottedFlags(rs), m) != []
    ensures AxisTitles(rs, Successes(PlottedFlags(rs), n)) == AxisTitles(rs, Successes(PlottedFlags(rs), m))
  {
    var ok := PlottedFlags(rs);
    SuccessesPrefix(ok, m, n);
    assert Successes(ok, n)[0] == Successes(ok, m)[0];
  }

  /**
   * The titles belong to the first file that plots even when its headers are
   * unnamed: a later file with real header names does not replace the X/Y fallback.
   */
  lemma UnnamedFirstFileKeepsFallback(rs: seq<FileResult>, n: nat)
    requires 1 <= n <= |rs| && rs[0].Plotted? && rs[0].xLabel == "" && rs[0].yLabel == ""
    ensures AxisTitles(rs, Successes(PlottedFlags(rs), n)) == ("X", "Y")
  {
    var ok := PlottedFlags(rs);
    assert Successes(ok, 1) == [0];
    TitlesSetOnce(rs, 1, n);
  }

  function Digit(n: nat): string
    requires n < 10
  {
    [('0' as int + n) as char]
  }

  /** The trace of the `idx`-th file: legend name, style and colour depend on the mode. */
  function DataTraceFor(mode: Mode, idx: nat, savedName: string, connect: bool, xs: seq<real>, ys: seq<real>): Trace
    requires idx < SlotCount(mode)
  {
    if mode == Overlay then
      DataTrace(savedName, if connect then LinesMarkers else Markers, MainColors[idx], xs, ys)
    else
      DataTrace("Файл " + Digit(idx + 1) + ": " + savedName, Markers, FileColorsAnalytical[idx], xs, ys)
  }

  /** The traces of the files listed in `K`, in that order. */
  function DataTraces(mode: Mode, files: seq<Upload>, connects: seq<bool>, rs: seq<FileResult>, K: seq<nat>): seq<Trace>
    requires |connects| == |files| == |rs|
    requires forall j :: 0 <= j < |K| ==> K[j] < |rs| && K[j] < SlotCount(mode) && rs[K[j]].Plotted?
  {
    if K == [] then []
    else
      var k := K[|K| - 1];
      DataTraces(mode, files, connects, rs, K[..|K| - 1])
        + [DataTraceFor(mode, k, files[k].savedName, connects[k], rs[k].xs, rs[k].ys)]
  }

  /** The x-values of the files listed in `K`, concatenated in that order. */
  function XValues(rs: seq<FileResult>, K: seq<nat>): seq<real>
    requires forall j :: 0 <= j < |K| ==> K[j] < |rs| && rs[K[j]].Plotted?
  {
    if K == [] then [] else XValues(rs, K[..|K| - 1]) + rs[K[|K| - 1]].xs
  }

  /** Every x-value collected comes from a file that plotted. */
  lemma {:induction false} XValuesFromPlotted(rs: seq<FileResult>, K: seq<nat>, v: real)
    requires forall j :: 0 <= j < |K| ==> K[j] < |rs| && rs[K[j]].Plotted?
    requires v in XValues(rs, K)
    ensures exists j :: 0 <= j < |K| && v in rs[K[j]].xs
  {
    var last := K[|K| - 1];
    if v in rs[last].xs {
      assert 0 <= |K| - 1 < |K|;
    } else {
      XValuesFromPlotted(rs, K[..|K| - 1], v);
      var j :| 0 <= j < |K| - 1 && v in rs[K[..|K| - 1][j]].xs;
      assert K[..|K| - 1][j] == K[j];
    }
  }

  // ---------------------------------------------------------------------------
  // The per-file fold

  /** One more index: it is appended to the successes exactly when its item succeeded. */
  lemma SuccessesStep(ok: seq<bool>, i: nat)
    requires i < |ok|
    ensures Successes(ok, i + 1) == Successes(ok, i) + (if ok[i] then [i] else [])
  {
  }

  /** Appending a plotted file to the list appends its trace. */
  lemma DataTracesSnoc(mode: Mode, files: seq<Upload>, connects: seq<bool>, rs: seq<FileResult>, K: seq<nat>, i: nat)
    requires |connects| == |files| == |rs|
    requires forall j :: 0 <= j < |K| ==> K[j] < |rs| && K[j] < SlotCount(mode) && rs[K[j]].Plotted?
    requires i < |rs| && i < SlotCount(mode) && rs[i].Plotted?
    ensures DataTraces(mode, files, connects, rs, K + [i])
            == DataTraces(mode, files, connects, rs, K) + [DataTraceFor(mode, i, files[i].savedName, connects[i], rs[i].xs, rs[i].ys)]
  {
    assert (K + [i])[..|K|] == K;
  }

  /** Appending a plotted file to the list appends its x-values. */
  lemma XValuesSnoc(rs: seq<FileResult>, K: seq<nat>, i: nat)
    requires forall j :: 0 <= j < |K| ==> K[j] < |rs| && rs[K[j]].Plotted?
    requires i < |rs| && rs[i].Plotted?
    ensures XValues(rs, K + [i]) == XValues(rs, K) + rs[i].xs
  {
    assert (K + [i])[..|K|] == K;
  }

  /** The loop's state: the axis titles, whether they are set, the error, the counter, the traces, `all_x`. */
  datatype FoldState = FoldState(
    xTitle: string, yTitle: string, titlesSet: bool, error: Option<string>,
    successCount: nat, traces: seq<Trace>, allX: seq<real>)

  /** The indices in `K` name plotted outcomes that have a slot. */
  predicate PlottedIndices(mode: Mode, rs: seq<FileResult>, K: seq<nat>) {
    forall j :: 0 <= j < |K| ==> K[j] < |rs| && K[j] < SlotCount(mode) && rs[K[j]].Plotted?
  }

  /**
   * The loop state once the files listed in `K` have plotted and `e` is the
   * error: titles from the first of them, the number of them (overlay mode
   * only), their traces, and their x-values (analytical mode only).
   */
  ghost function StateOf(mode: Mode, files: seq<Upload>, connects: seq<bool>, rs: seq<FileResult>,
                         K: seq<nat>, e: Option<string>): FoldState
    requires |connects| == |files| == |rs| && PlottedIndices(mode, rs, K)
  {
    FoldState(AxisTitles(rs, K).0, AxisTitles(rs, K).1, K != [], e,
              if mode == Overlay then |K| else 0,
              DataTraces(mode, files, connects, rs, K),
              if mode == Analytical then XValues(rs, K) else [])
  }

  /**
   * The fold's state after the first `n` of the outcomes `rs`, stated without
   * the loop: the state of the files that plotted, with the last failure's message.
   */
  ghost function FoldOver(mode: Mode, files: seq<Upload>, connects: seq<bool>, rs: seq<FileResult>, n: nat): FoldState
    requires |connects| == |files| == |rs| && n <= |rs| && n <= SlotCount(mode)
  {
    StateOf(mode, files, connects, rs, Successes(PlottedFlags(rs), n), LastFailure(FailureMessages(rs), n, None))
  }

  /** One more plotted file: the loop body's update of the state. */
  lemma PlottedStep(mode: Mode, files: seq<Upload>, connects: seq<bool>, rs: seq<FileResult>,
                    K: seq<nat>, e: Option<string>, i: nat)
    requires |connects| == |files| == |rs| && PlottedIndices(mode, rs, K)
    requires i < |rs| && i < SlotCount(mode) && rs[i].Plotted?
    ensures PlottedIndices(mode, rs, K + [i])
    ensures StateOf(mode, files, connects, rs, K + [i], e)
            == FoldStep(mode, i, files[i].savedName, connects[i], StateOf(mode, files, connects, rs, K, e), rs[i])
  {
    PlottedIndicesSnoc(mode, rs, K, i);
    AxisTitlesSnoc(rs, K, i);
    DataTracesSnoc(mode, files, connects, rs, K, i);
    XValuesSnoc(rs, K, i);
    var before := StateOf(mode, files, connects, rs, K, e);
    var after := StateOf(mode, files, connects, rs, K + [i], e);
    var stepped := FoldStep(mode, i, files[i].savedName, connects[i], before, rs[i]);
    assert after.xTitle == stepped.xTitle && after.yTitle == stepped.yTitle;
    assert after.titlesSet == stepped.titlesSet && after.error == stepped.error;
    assert after.successCount == stepped.successCount;
    assert after.traces == stepped.traces;
    assert after.allX == stepped.allX;
  }

  /** Appending a plotted file keeps the list one of plotted files that have a slot. */
  lemma PlottedIndicesSnoc(mode: Mode, rs: seq<FileResult>, K: seq<nat>, i: nat)
    requires PlottedIndices(mode, rs, K) && i < |rs| && i < SlotCount(mode) && rs[i].Plotted?
    ensures PlottedIndices(mode, rs, K + [i])
  {
    forall j | 0 <= j < |K| + 1
      ensures (K + [i])[j] < |rs| && (K + [i])[j] < SlotCount(mode) && rs[(K + [i])[j]].Plotted?
    {
      if j < |K| {
        assert (K + [i])[j] == K[j];
      }
    }
  }

  /** Appending a plotted file changes the titles only when it is the first. */
  lemma AxisTitlesSnoc(rs: seq<FileResult>, K: seq<nat>, i: nat)
    requires forall j :: 0 <= j < |K| ==> K[j] < |rs| && rs[K[j]].Plotted?
    requires i < |rs| && rs[i].Plotted?
    requires forall j :: 0 <= j < |K| + 1 ==> (K + [i])[j] < |rs| && rs[(K + [i])[j]].Plotted?
    ensures AxisTitles(rs, K + [i])
            == if K != [] then AxisTitles(rs, K) else (AxisTitle(rs[i].xLabel, "X"), AxisTitle(rs[i].yLabel, "Y"))
  {
    assert (K + [i])[0] == if K != [] then K[0] else i;
  }

  /** The fold's state after the first `n` outcomes, one loop pass per file. */
  function FoldSpec(mode: Mode, files: seq<Upload>, connects: seq<bool>, rs: seq<FileResult>, n: nat): FoldState
    requires |connects| == |files| == |rs| && n <= |rs| && n <= SlotCount(mode)
  {
    if n == 0 then FoldState("X", "Y", false, None, 0, [], [])
    else FoldStep(mode, n - 1, files[n - 1].savedName, connects[n - 1],
                  FoldSpec(mode, files, connects, rs, n - 1), rs[n - 1])
  }

  /** One file's effect on the loop state, as the loop body performs it. */
  function FoldStep(mode: Mode, i: nat, savedName: string, connect: bool, s: FoldState, r: FileResult): FoldState
    requires i < SlotCount(mode)
  {
    match r
    case Failed(msg) => s.(error := Some(msg))
    case Skipped => s
    case Plotted(xLabel, yLabel, xs, ys) =>
      s.(xTitle := if s.titlesSet then s.xTitle else AxisTitle(xLabel, "X"),
         yTitle := if s.titlesSet then s.yTitle else AxisTitle(yLabel, "Y"),
         titlesSet := true,
         successCount := if mode == Overlay then s.successCount + 1 else s.successCount,
         traces := s.traces + [DataTraceFor(mode, i, savedName, connect, xs, ys)],
         allX := if mode == Analytical then s.allX + xs else s.allX)
  }

  /** One more file is one more loop pass. */
  lemma FoldSpecNext(mode: Mode, files: seq<Upload>, connects: seq<bool>, rs: seq<FileResult>, i: nat)
    requires |connects| == |files| == |rs| && i < |rs| && i < SlotCount(mode)
    ensures FoldSpec(mode, files, connects, rs, i + 1)
            == FoldStep(mode, i, files[i].savedName, connects[i], FoldSpec(mode, files, connects, rs, i), rs[i])
  {
  }

  /** Before any file the declarative state is the loop's initial state. */
  lemma FoldOverEmpty(mode: Mode, files: seq<Upload>, connects: seq<bool>, rs: seq<FileResult>)
    requires |connects| == |files| == |rs|
    ensures FoldOver(mode, files, connects, rs, 0) == FoldState("X", "Y", false, None, 0, [], [])
  {
    assert Successes(PlottedFlags(rs), 0) == [];
    assert LastFailure(FailureMessages(rs), 0, None) == None;
  }

  /**
   * Running the loop body over the first `n` files gives the declarative
   * state: titles of the first file that plotted, the last failure's message,
   * and the count, traces and x-values of the files that plotted.
   */
  lemma {:induction false} FoldSpecMeaning(mode: Mode, files: seq<Upload>, connects: seq<bool>, rs: seq<FileResult>, n: nat)
    requires |connects| == |files| == |rs| && n <= |rs| && n <= SlotCount(mode)
    ensures FoldSpec(mode, files, connects, rs, n) == FoldOver(mode, files, connects, rs, n)
  {
    if n == 0 {
      FoldOverEmpty(mode, files, connects, rs);
    } else {
      var i := n - 1;
      FoldSpecMeaning(mode, files, connects, rs, i);
      var ok := PlottedFlags(rs);
      var fails := FailureMessages(rs);
      var K := Successes(ok, i);
      var e := LastFailure(fails, i, None);
      SuccessesStep(ok, i);
      assert ok[i] == rs[i].Plotted?;
      assert fails[i] == if rs[i].Failed? then Some(rs[i].msg) else None;
      match rs[i] {
        case Failed(msg) =>
          assert Successes(ok, n) == K;
          assert LastFailure(fails, n, None) == Some(msg);
        case Skipped =>
          assert Successes(ok, n) == K;
          assert LastFailure(fails, n, None) == e;
        case Plotted(_, _, _, _) =>
          assert Successes(ok, n) == K + [i];
          assert LastFailure(fails, n, None) == e;
          PlottedStep(mode, files, connects, rs, K, e, i);
      }
    }
  }

  /** The analytical page records no connect flags: every file is drawn as markers. */
  function Unconnected(n: nat): (flags: seq<bool>)
    ensures |flags| == n
  {
    if n == 0 then [] else Unconnected(n - 1) + [false]
  }

  /** No file of the analytical page is joined by lines. */
  lemma {:induction false} UnconnectedUnset(n: nat, i: nat)
    requires i < n
    ensures !Unconnected(n)[i]
  {
    if i < n - 1 {
      UnconnectedUnset(n - 1, i);
      assert Unconnected(n)[i] == Unconnected(n - 1)[i];
    }
  }

  /**
   * The body of either file loop: read and normalise file `i`, then record a
   * failure's message, or set the titles if no earlier file set them, add the
   * trace, and count it (overlay mode) or collect its x-values (analytical mode).
   */
  method FoldFile(mode: Mode, i: nat, f: Upload, connect: bool, st: FoldState) returns (st': FoldState)
    requires i < SlotCount(mode)
    ensures st' == FoldStep(mode, i, f.savedName, connect, st, FileOutcome(mode, f))
  {
    st' := st;
    match FileOutcome(mode, f) {
      case Failed(msg) =>
        st' := st'.(error := Some(msg));
      case Skipped =>
      case Plotted(xLabel, yLabel, xs, ys) =>
        if !st'.titlesSet {
          st' := st'.(xTitle := AxisTitle(xLabel, "X"), yTitle := AxisTitle(yLabel, "Y"), titlesSet := true);
        }
        if mode == Analytical {
          st' := st'.(allX := st'.allX + xs);
        }
        st' := st'.(traces := st'.traces + [DataTraceFor(mode, i, f.savedName, connect, xs, ys)]);
        if mode == Overlay {
          st' := st'.(successCount := st'.successCount + 1);
        }
    }
  }

  /**
   * Either page's file loop: file `i` is looked at while `i` is below both the
   * number of uploads and the page's slot count, and each pass is `FoldFile`.
   */
  method FoldFiles(mode: Mode, files: seq<Upload>, connects: seq<bool>) returns (st: FoldState)
    requires |connects| == |files|
    ensures st == FoldSpec(mode, files, connects, Results(mode, files), Processed(mode, files))
  {
    ghost var rs := Results(mode, files);
    st := FoldState("X", "Y", false, None, 0, [], []);
    var i := 0;
    while i < |files| && i < SlotCount(mode)
      invariant 0 <= i <= Processed(mode, files)
      invariant st == FoldSpec(mode, files, connects, rs, i)
    {
      ResultAt(mode, files, i);
      FoldSpecNext(mode, files, connects, rs, i);
      st := FoldFile(mode, i, files[i], connects[i], st);
      i := i + 1;
    }
    assert i == Processed(mode, files);
  }

  /**
   * The file loop of `index_page`: only the first five files are looked at;
   * titles come from the first file that plots; the error is the last
   * failure's message; plotted files are counted and drawn in the colour of
   * their position among the collected files (not of their form slot), joined
   * by lines when their box was ticked.
   */
  method OverlayFold(files: seq<Upload>, connects: seq<bool>) returns (st: FoldState)
    requires |connects| == |files|
    ensures st == FoldOver(Overlay, files, connects, Results(Overlay, files), Processed(Overlay, files))
  {
    st := FoldFiles(Overlay, files, connects);
    FoldSpecMeaning(Overlay, files, connects, Results(Overlay, files), Processed(Overlay, files));
  }

  /**
   * The file loop of `analytical`: only the first three files are looked at;
   * titles come from the first file that plots; the error is the last
   * failure's message; plotted files are drawn as numbered marker traces and
   * their x-values collected for the formula grid.
   */
  method AnalyticalFold(files: seq<Upload>) returns (st: FoldState)
    ensures st == FoldOver(Analytical, files, Unconnected(|files|), Results(Analytical, files), Processed(Analytical, files))
  {
    st := FoldFiles(Analytical, files, Unconnected(|files|));
    FoldSpecMeaning(Analytical, files, Unconnected(|files|), Results(Analytical, files), Processed(Analytical, files));
  }

  // ---------------------------------------------------------------------------
  // The formula side of the analytical page (main.py:162-168, 224-244)

  /** The formula fields kept: each stripped, dropped when blank, func1 before func2. */
  function FormulaInputs(func1: string, func2: string): (fs: seq<string>)
    ensures |fs| == (if Strip(func1) != "" then 1 else 0) + (if Strip(func2) != "" then 1 else 0)
    ensures forall s :: s in fs <==> s != "" && (s == Strip(func1) || s == Strip(func2))
    ensures Strip(func1) != "" ==> fs[0] == Strip(func1)
  {
    var f1, f2 := Strip(func1), Strip(func2);
    (if f1 != "" then [f1] else []) + (if f2 != "" then [f2] else [])
  }

  function Min(xs: seq<real>): (m: real)
    requires xs != []
    ensures m in xs && forall v :: v in xs ==> m <= v
  {
    if |xs| == 1 then xs[0]
    else
      var m := Min(xs[1..]);
      assert xs == [xs[0]] + xs[1..];
      if xs[0] <= m then xs[0] else m
  }

  function Max(xs: seq<real>): (m: real)
    requires xs != []
    ensures m in xs && forall v :: v in xs ==> v <= m
  {
    if |xs| == 1 then xs[0]
    else
      var m := Max(xs[1..]);
      assert xs == [xs[0]] + xs[1..];
      if m <= xs[0] then xs[0] else m
  }

  /** The formula range: from the smallest to the largest collected x, or -10..10 when there is none. */
  function XRange(allX: seq<real>): (r: (real, real))
    ensures allX == [] ==> r == (-10.0, 10.0)
    ensures allX != [] ==> r.0 in allX && r.1 in allX && forall v :: v in allX ==> r.0 <= v <= r.1
  {
    if allX == [] then (-10.0, 10.0) else (Min(allX), Max(allX))
  }

  /** `np.linspace(x_min, x_max, 500)`: 500 points over a range that is never reversed. */
  function Grid(allX: seq<real>): (d: Domain)
    ensures d.count == 500 && d.lo <= d.hi
  {
    var r := XRange(allX);
    assert r.0 <= r.1 by {
      if allX != [] {
        assert r.0 in allX;
      }
    }
    Linspace(r.0, r.1, 500)
  }

  /** Every collected x-value lies within the formula grid, whose ends are collected values; -10..10 without data. */
  lemma GridCoversData(allX: seq<real>)
    ensures allX == [] ==> Grid(allX) == Linspace(-10.0, 10.0, 500)
    ensures allX != [] ==> Grid(allX).lo in allX && Grid(allX).hi in allX
    ensures forall v :: v in allX ==> Grid(allX).lo <= v <= Grid(allX).hi
  {
    var r := XRange(allX);
    assert Grid(allX) == Linspace(r.0, r.1, 500);
  }

  function FormulaResults(functions: seq<string>, grid: Domain, evaluate: Evaluator): (outs: seq<Result<NumArray>>)
    ensures |outs| == |functions|
  {
    seq(|functions|, k requires 0 <= k < |functions| => SafeEval(functions[k], grid, evaluate))
  }

  function OkFlags(outs: seq<Result<NumArray>>): (ok: seq<bool>)
    ensures |ok| == |outs|
  {
    seq(|outs|, k requires 0 <= k < |outs| => outs[k].Ok?)
  }

  function FormulaFailures(outs: seq<Result<NumArray>>): (fs: seq<Option<string>>)
    ensures |fs| == |outs|
  {
    seq(|outs|, k requires 0 <= k < |outs| => if outs[k].Err? then Some(FormulaFailureMessage(outs[k].msg)) else None)
  }

  function FormulaTraceFor(idx: nat, expr: string, grid: Domain, values: NumArray): Trace
    requires idx < FormulaCap
  {
    FormulaTrace("Функция " + Digit(idx + 1) + ": " + expr, Lines, FuncColors[idx], grid, values)
  }

  /** The traces of the formulas listed in `K`, in that order. */
  function FormulaTraces(functions: seq<string>, grid: Domain, outs: seq<Result<NumArray>>, K: seq<nat>): seq<Trace>
    requires |outs| == |functions|
    requires forall j :: 0 <= j < |K| ==> K[j] < |outs| && K[j] < FormulaCap && outs[K[j]].Ok?
  {
    if K == [] then []
    else
      var k := K[|K| - 1];
      FormulaTraces(functions, grid, outs, K[..|K| - 1]) + [FormulaTraceFor(k, functions[k], grid, outs[k].value)]
  }

  function FormulaCount(functions: seq<string>): (n: nat)
    ensures n <= |functions| && n <= FormulaCap
  {
    if |functions| < FormulaCap then |functions| else FormulaCap
  }

  /** Appending an evaluated formula to the list appends its trace. */
  lemma FormulaTracesSnoc(functions: seq<string>, grid: Domain, outs: seq<Result<NumArray>>, K: seq<nat>, i: nat)
    requires |outs| == |functions|
    requires forall j :: 0 <= j < |K| ==> K[j] < |outs| && K[j] < FormulaCap && outs[K[j]].Ok?
    requires i < |outs| && i < FormulaCap && outs[i].Ok?
    ensures FormulaTraces(functions, grid, outs, K + [i])
            == FormulaTraces(functions, grid, outs, K) + [FormulaTraceFor(i, functions[i], grid, outs[i].value)]
  {
    assert (K + [i])[..|K|] == K;
  }

  /**
   * The formula loop's traces and error after the first `n` formulas, stated
   * without the loop: the traces of the formulas that evaluated, and the last
   * failure's message (or the error the files left, when none failed).
   */
  ghost function FormulaSpec(functions: seq<string>, grid: Domain, evaluate: Evaluator, error0: Option<string>, n: nat)
    : (seq<Trace>, Option<string>)
    requires n <= FormulaCount(functions)
  {
    var outs := FormulaResults(functions, grid, evaluate);
    (FormulaTraces(functions, grid, outs, Successes(OkFlags(outs), n)), LastFailure(FormulaFailures(outs), n, error0))
  }

  /** One formula's effect on the loop state, as the loop body performs it. */
  function FormulaStep(i: nat, expr: string, grid: Domain, traces: seq<Trace>, error: Option<string>, r: Result<NumArray>)
    : (seq<Trace>, Option<string>)
    requires i < FormulaCap
  {
    match r
    case Ok(values) => (traces + [FormulaTraceFor(i, expr, grid, values)], error)
    case Err(cause) => (traces, Some(FormulaFailureMessage(cause)))
  }

  /** The declarative description of the formula loop obeys its body. */
  lemma FormulaSpecStep(functions: seq<string>, grid: Domain, evaluate: Evaluator, error0: Option<string>, i: nat)
    requires i < FormulaCount(functions)
    ensures var s := FormulaSpec(functions, grid, evaluate, error0, i);
            FormulaSpec(functions, grid, evaluate, error0, i + 1)
            == FormulaStep(i, functions[i], grid, s.0, s.1, SafeEval(functions[i], grid, evaluate))
  {
    var outs := FormulaResults(functions, grid, evaluate);
    var ok := OkFlags(outs);
    var fails := FormulaFailures(outs);
    var K := Successes(ok, i);
    SuccessesStep(ok, i);
    assert outs[i] == SafeEval(functions[i], grid, evaluate);
    assert ok[i] == outs[i].Ok?;
    assert fails[i] == if outs[i].Err? then Some(FormulaFailureMessage(outs[i].msg)) else None;
    if outs[i].Ok? {
      FormulaTracesSnoc(functions, grid, outs, K, i);
      assert LastFailure(fails, i + 1, error0) == LastFailure(fails, i, error0);
    } else {
      assert Successes(ok, i + 1) == K;
    }
  }

  /**
   * The formula loop: each formula that evaluates adds a line trace over the
   * grid; each failure overwrites the error with its message.
   */
  method EvaluateFormulas(functions: seq<string>, grid: Domain, evaluate: Evaluator, error0: Option<string>)
    returns (traces: seq<Trace>, error: Option<string>)
    ensures (traces, error) == FormulaSpec(functions, grid, evaluate, error0, FormulaCount(functions))
  {
    traces, error := [], error0;
    var i := 0;
    while i < |functions| && i < FormulaCap
      invariant 0 <= i <= FormulaCount(functions)
      invariant (traces, error) == FormulaSpec(functions, grid, evaluate, error0, i)
    {
      var expr := functions[i];
      var result := SafeEval(expr, grid, evaluate);
      FormulaSpecStep(functions, grid, evaluate, error0, i);
      ghost var next := FormulaStep(i, expr, grid, traces, error, result);
      match result {
        case Ok(values) =>
          traces := traces + [FormulaTraceFor(i, expr, grid, values)];
        case Err(cause) =>
          error := Some(FormulaFailureMessage(cause));
      }
      assert (traces, error) == next;
      i := i + 1;
    }
    assert i == FormulaCount(functions);
  }

  // ---------------------------------------------------------------------------
  // The two pages

  /** The chart title: the stripped user title, or the page's default when blank. */
  function PlotTitle(raw: string, default: string): (r: string)
    ensures r == default || r == Strip(raw)
    ensures default != "" ==> r != ""
  {
    var t := Strip(raw);
    if t == "" then default else t
  }

  /**
   * A title of whitespace only (or none) gives the default; any other title is
   * shown without its surrounding whitespace, and is then neither empty nor
   * padded.
   */
  lemma PlotTitleSpec(raw: string, default: string)
    ensures (forall k :: 0 <= k < |raw| ==> IsSpace(raw[k])) ==> PlotTitle(raw, default) == default
    ensures (exists k :: 0 <= k < |raw| && !IsSpace(raw[k])) ==>
              var r := PlotTitle(raw, default);
              && r == Strip(raw) && r != ""
              && !IsSpace(r[0]) && !IsSpace(r[|r| - 1])
  {
    StripSpec(raw);
  }

  /**
   * `index_page`: a rejected file name or an empty upload aborts with a
   * message; otherwise the chart is drawn exactly when at least one file
   * plotted, titled from the first such file, and the error shown is the last
   * file failure (or a generic one when nothing plotted and nothing failed).
   */
  method IndexPage(isPost: bool, slots: seq<Slot>, plotTitle: string) returns (plot: Option<Figure>, error: Option<string>)
    requires |slots| == SlotCount(Overlay)
    ensures !isPost ==> plot.None? && error.None?
    ensures isPost && FirstRejected(slots).Some? ==> plot.None? && error == Some(RejectMessage(Overlay))
    ensures isPost && FirstRejected(slots).None? && ScannedFiles(slots) == [] ==>
              plot.None? && error == Some(NoFilesMessage)
    ensures isPost && FirstRejected(slots).None? && ScannedFiles(slots) != [] ==>
              var files := ScannedFiles(slots);
              var rs := Results(Overlay, files);
              var K := Successes(PlottedFlags(rs), |files|);
              var lastError := LastFailure(FailureMessages(rs), |files|, None);
              && (plot.Some? <==> K != [])
              && (K == [] ==> error == Some(if lastError.Some? then lastError.value else NothingPlottedMessage))
              && (K != [] ==> error == lastError)
              && (K != [] ==> plot.value == Figure(PlotTitle(plotTitle, DefaultTitle(Overlay)),
                                                   AxisTitles(rs, K).0, AxisTitles(rs, K).1,
                                                   DataTraces(Overlay, files, ScannedFlags(slots), rs, K)))
  {
    plot, error := None, None;
    if !isPost {
      return;
    }
    var files, connects, rejected := ScanSlots(slots);
    if rejected {
      error := Some(RejectMessage(Overlay));
      return;
    }
    if files == [] {
      error := Some(NoFilesMessage);
      return;
    }
    var st := OverlayFold(files, connects);
    if st.successCount == 0 {
      error := if st.error.Some? then st.error else Some(NothingPlottedMessage);
    } else {
      error := st.error;
      plot := Some(Figure(PlotTitle(plotTitle, DefaultTitle(Overlay)), st.xTitle, st.yTitle, st.traces));
    }
  }

  /** The message the analytical page has before any file is read: none, a rejection, or "no input". */
  function AnalyticalEarlyError(slots: seq<Slot>, functions: seq<string>): Option<string> {
    if ScannedFiles(slots) == [] && functions == [] then Some(NoInputMessage)
    else if FirstRejected(slots).Some? then Some(RejectMessage(Analytical))
    else None
  }

  /**
   * `analytical`: an early error (a rejected name, or neither files nor
   * formulas) aborts; otherwise files plot as markers, the formulas are
   * evaluated over a grid spanning the plotted x-values, the error is the last
   * failure of either loop, and the chart is drawn only if nothing failed.
   */
  method AnalyticalPage(isPost: bool, slots: seq<Slot>, func1: string, func2: string, plotTitle: string,
                        evaluate: Evaluator)
    returns (plot: Option<Figure>, error: Option<string>)
    requires |slots| == SlotCount(Analytical)
    ensures !isPost ==> plot.None? && error.None?
    ensures isPost && AnalyticalEarlyError(slots, FormulaInputs(func1, func2)).Some? ==>
              plot.None? && error == AnalyticalEarlyError(slots, FormulaInputs(func1, func2))
    ensures isPost && AnalyticalEarlyError(slots, FormulaInputs(func1, func2)).None? ==>
              var files := ScannedFiles(slots);
              var functions := FormulaInputs(func1, func2);
              var rs := Results(Analytical, files);
              var K := Successes(PlottedFlags(rs), |files|);
              var grid := Grid(XValues(rs, K));
              var outs := FormulaResults(functions, grid, evaluate);
              var L := Successes(OkFlags(outs), |functions|);
              && error == LastFailure(FormulaFailures(outs), |functions|, LastFailure(FailureMessages(rs), |files|, None))
              && (plot.Some? <==> error.None?)
              && (plot.Some? ==> plot.value == Figure(PlotTitle(plotTitle, DefaultTitle(Analytical)),
                                                      AxisTitles(rs, K).0, AxisTitles(rs, K).1,
                                                      DataTraces(Analytical, files, Unconnected(|files|), rs, K)
                                                        + FormulaTraces(functions, grid, outs, L)))
  {
    plot, error := None, None;
    if !isPost {
      return;
    }
    var files, connects, rejected := ScanSlots(slots);
    if rejected {
      error := Some(RejectMessage(Analytical));
    }
    var functions := FormulaInputs(func1, func2);
    if files == [] && functions == [] {
      error := Some(NoInputMessage);
    }
    if error.None? {
      var st := AnalyticalFold(files);
      assert Processed(Analytical, files) == |files|;
      ghost var rs := Results(Analytical, files);
      ghost var K := Successes(PlottedFlags(rs), |files|);
      assert st == StateOf(Analytical, files, Unconnected(|files|), rs, K, LastFailure(FailureMessages(rs), |files|, None));
      var grid := Grid(st.allX);
      var formulaTraces;
      formulaTraces, error := EvaluateFormulas(functions, grid, evaluate, st.error);
      assert FormulaCount(functions) == |functions|;
      if error.None? {
        plot := Some(Figure(PlotTitle(plotTitle, DefaultTitle(Analytical)), st.xTitle, st.yTitle,
                            st.traces + formulaTraces));
      }
    }
  }
}

=== FILE: text.dfy ===
/**
 * Character classes and string helpers shared by the formula front end and the
 * dataset normaliser. Characters are classified as Python classifies ASCII
 * characters in a `str` regex and in `str.strip()`; every non-ASCII character
 * is treated as neither a word character nor whitespace.
 */
module Text {

  /** Python's `\s` and `str.isspace()` on ASCII: \t \n \v \f \r, the separators 0x1C-0x1F, and space. */
  predicate IsSpace(c: char) {
    c == ' ' || (9 <= c as int <= 13) || (28 <= c as int <= 31)
  }

  /** Python's `\w` on ASCII: letters, digits and underscore. */
  predicate IsWordChar(c: char) {
    ('a' <= c <= 'z') || ('A' <= c <= 'Z') || ('0' <= c <= '9') || c == '_'
  }

  predicate IsPrefix(p: string, s: string) {
    |p| <= |s| && s[..|p|] == p
  }

  /** `s.endswith(suffix)` */
  predicate EndsWith(s: string, suffix: string) {
    |suffix| <= |s| && s[|s| - |suffix|..] == suffix
  }

  /** `p` occurs in `s` starting at position `k`. */
  predicate OccursAt(s: string, p: string, k: int) {
    0 <= k && k + |p| <= |s| && s[k..k + |p|] == p
  }

  /** `p in s` for strings: `p` occurs somewhere in `s`, as the scan that looks at each start position. */
  function Contains(s: string, p: string): (r: bool)
    ensures r <==> exists k :: OccursAt(s, p, k)
  {
    if IsPrefix(p, s) then
      assert OccursAt(s, p, 0);
      true
    else if s == [] then
      assert forall k :: !OccursAt(s, p, k);
      false
    else
      var r := Contains(s[1..], p);
      assert forall k :: OccursAt(s[1..], p, k) ==> OccursAt(s, p, k + 1);
      assert forall k :: OccursAt(s, p, k) ==> k >= 1 && OccursAt(s[1..], p, k - 1) by {
        forall k | OccursAt(s, p, k) ensures k >= 1 && OccursAt(s[1..], p, k - 1) {
          assert k != 0;
          assert s[1..][k - 1..k - 1 + |p|] == s[k..k + |p|];
        }
      }
      r
  }

  /** `s.lstrip()` */
  function TrimLeft(s: string): string {
    if s != [] && IsSpace(s[0]) then TrimLeft(s[1..]) else s
  }

  /** `s.rstrip()` */
  function TrimRight(s: string): string {
    if s != [] && IsSpace(s[|s| - 1]) then TrimRight(s[..|s| - 1]) else s
  }

  /** `s.strip()` */
  function Strip(s: string): string {
    TrimRight(TrimLeft(s))
  }

  /** Left trimming removes exactly the leading whitespace: a suffix remains that does not start with a space. */
  lemma {:induction false} TrimLeftSpec(s: string)
    ensures var r := TrimLeft(s);
      && |r| <= |s| && r == s[|s| - |r|..]
      && (forall k :: 0 <= k < |s| - |r| ==> IsSpace(s[k]))
      && (r == [] || !IsSpace(r[0]))
  {
    if s != [] && IsSpace(s[0]) {
      var t := s[1..];
      TrimLeftSpec(t);
      var r := TrimLeft(t);
      assert TrimLeft(s) == r;
      assert t[|t| - |r|..] == s[|s| - |r|..];
      forall k | 0 <= k < |s| - |r| ensures IsSpace(s[k]) {
        if k > 0 {
          assert s[k] == t[k - 1];
        }
      }
    }
  }

  /** Right trimming removes exactly the trailing whitespace: a prefix remains that does not end with a space. */
  lemma {:induction false} TrimRightSpec(s: string)
    ensures var r := TrimRight(s);
      && |r| <= |s| && r == s[..|r|]
      && (forall k :: |r| <= k < |s| ==> IsSpace(s[k]))
      && (r == [] || !IsSpace(r[|r| - 1]))
  {
    if s != [] && IsSpace(s[|s| - 1]) {
      var t := s[..|s| - 1];
      TrimRightSpec(t);
      var r := TrimRight(t);
      assert TrimRight(s) == r;
      assert t[..|r|] == s[..|r|];
      forall k | |r| <= k < |s| ensures IsSpace(s[k]) {
        if k < |s| - 1 {
          assert s[k] == t[k];
        }
      }
    }
  }

  /**
   * Stripping leaves a contiguous part of `s` that neither starts nor ends
   * with whitespace, with only whitespace cut off on either side; it is empty
   * exactly when `s` is all whitespace.
   */
  lemma StripSpec(s: string)
    ensures var r := Strip(s);
      && |r| <= |s|
      && (exists i :: OccursAt(s, r, i) && (forall k :: 0 <= k < i || i + |r| <= k < |s| ==> IsSpace(s[k])))
      && (r == [] || (!IsSpace(r[0]) && !IsSpace(r[|r| - 1])))
      && (r == [] <==> forall k :: 0 <= k < |s| ==> IsSpace(s[k]))
  {
    TrimLeftSpec(s);
    var left := TrimLeft(s);
    TrimRightSpec(left);
    var r := TrimRight(left);
    var i := |s| - |left|;
    assert r == s[i..i + |r|];
    assert OccursAt(s, r, i);
    assert r != [] ==> left[0] == r[0];
  }

  /**
   * Stripping removes only surrounding whitespace: a run of `s` that starts
   * and ends with a non-space character is still in the stripped text.
   */
  lemma StripKeepsInnerText(s: string, k: nat, len: nat)
    requires 0 < len && k + len <= |s| && !IsSpace(s[k]) && !IsSpace(s[k + len - 1])
    ensures Contains(Strip(s), s[k..k + len])
  {
    var left := TrimLeft(s);
    TrimLeftSpec(s);
    TrimRightSpec(left);
    var d := |s| - |left|;
    assert d <= k;
    assert left[k + len - 1 - d] == s[k + len - 1];
    var r := TrimRight(left);
    assert k + len - d <= |r|;
    var i, p := k - d, s[k..k + len];
    assert forall j :: 0 <= j < len ==> r[i + j] == p[j];
    assert r[i..i + len] == p;
    assert OccursAt(r, p, i);
    assert r == Strip(s);
  }

  /** Stripping twice is stripping once. */
  lemma StripIdempotent(s: string)
    ensures Strip(Strip(s)) == Strip(s)
  {
    StripSpec(s);
    var r := Strip(s);
    assert TrimLeft(r) == r;
    assert TrimRight(r) == r;
  }
}

=== FILE: wrappers.dfy ===
/** Option and Result, the two failure-carrying shapes the model uses. */
module Wrappers {

  /** A value that may be absent (Python's `None`, or a missing spreadsheet cell). */
  datatype Option<+T> = None | Some(value: T)

  /** An outcome that either carries a value or an error message (a raised exception's text). */
  datatype Result<+T> = Ok(value: T) | Err(msg: string)
}
